=== FILE: README.md ===
# Spectoda bridge gateway: request-handling model

This project models the request-handling logic of the Spectoda bridge's HTTP
gateway (`src/server.ts`). The gateway lets HTTP clients connect one controller
device, send it events, upload firmware and read its variables.

The device module (`./communication`), Express and the file system are not part
of this model. Every answer they give becomes an input to the handler that
awaits it: a scan result, a connect result, an emit result, a firmware image,
the result of a variable read. Each handler is a pure function, or one method,
from its request fields and those answers to:

- the response it sends, as an HTTP status and a JSON body (`Http.Response`);
- the ordered trace of what it asked of the device and the file system
  (`Device.Effect`);
- for `/connect` and `/upload-fw`, the value of the guarding flag afterwards.

Request fields are JavaScript values (`Js.Value`), and the handlers' checks use
JavaScript truthiness (`Js.Truthy`) or `=== undefined || === null`
(`Js.Nullish`) exactly where the code does.

Modules:

- `Wrappers`, `Js`, `Device`, `Http`: shared data (results, JS values, effects,
  responses).
- `Text`: JavaScript `split` with a one-character separator, and ASCII
  `toLowerCase`.
- `EventDispatch`: `/event`.
- `Notifier`, `NotifierExamples`: `/notifier`, its `key=value` parser, and a
  worked message.
- `Guard`: the busy-flag discipline shared by `connecting` and `fwUploading`. A
  handler's Begin step checks the flag and sets it with no `await` in between.
  Its End step is the `finally` that clears the flag. The module proves that
  however Begin and End steps of many requests interleave, at most one request
  is between its Begin and its End.
- `ConnectHandler`, `ConnectProperties`: `/connect` and its properties.
- `Firmware`: `/upload-fw`.
- `Variables`: `/variable` and `/variables`.

Behaviour of the code that the model keeps as written:

- A name-filtered scan that finds nothing still leads to a connect call, with
  the empty list (lines 100-103).
- Connect gets the whole scan result, not only its first entry (lines 103
  and 110).
- A restart is scheduled whenever the caught error is the string `"ScanFailed"`,
  whichever call threw it, the scan or the connect (lines 113-119).
- With a MAC, the MAC file is written after the connect succeeds (lines 94-96).
  In the scan branches it is written after the scan and before the connect
  (lines 101-103 and 107-110).
- The notifier lower-cases keys only, never values (line 215). The type
  comparison is case-sensitive, so `type=Percentage` falls back to a
  trigger-only emit (lines 236-251).
- The notifier's 400 body and the event's 400 body carry the reason under
  `result`, not `error` (lines 144 and 227).

Plain facts about the event relay (lines 21-53), which this model does not
cover:

- `/events` and `/local-events` are served by the same `sse` instance, so both
  streams get both kinds of event.
- `ota_progress` payloads are sent to `sse`, not to `sseota`. `sseota` is
  exported (line 22), but nothing in `src/server.ts` sends to it.

## Model

| member | source | states |
|---|---|---|
| `Js.NullishIsFalsy` | src/server.ts:142-147 | `undefined`/`null` are falsy. `0` and `""` are falsy but count as present under the test for `undefined` or `null`. |
| `Text.Split` | src/server.ts:212-213 | `split` with a one-character separator gives at least one piece, and no piece contains the separator. |
| `Text.JoinSplit` | src/server.ts:212-213 | Splitting loses nothing: joining the pieces with the separator gives back the original string. |
| `Text.SplitJoin` | src/server.ts:212-213 | Splitting a join of separator-free pieces gives back exactly those pieces, empty ones included. |
| `Text.Lower` | src/server.ts:215 | Lower-casing keeps the length and maps each character on its own: an ASCII upper-case letter's code point goes up by 32 (`A` becomes `a`), and every other character is kept. |
| `Text.LowerProperties` | src/server.ts:215 | Lower-casing leaves no upper-case letter and is idempotent. It is the identity exactly on strings with no upper-case letter. |
| `Notifier.Entry` | src/server.ts:213-215 | A token that counts yields a non-empty key with no upper-case letter, and a non-empty value with no `=`. |
| `Notifier.EntryCharacterization` | src/server.ts:213-216 | A token yields `(key, value)` exactly when it is `k=v` or `k=v=...`, with `k` and `v` non-empty, `key` being `k` lower-cased and `value` being `v` verbatim. |
| `Notifier.EntryRejects` | src/server.ts:213-214 | A token with no `=` (including the empty token from a double space), an empty key (`=x`), an empty value (`a=`) or an empty second piece (`a==x`) adds nothing. |
| `Notifier.ParseTokens` | src/server.ts:211-217 | Every key in the parsed map is non-empty with no upper-case letter. Every value is non-empty with no `=`. |
| `Notifier.ParseMessage` | src/server.ts:211-217 | The message's space-separated tokens folded into the map: keys are non-empty with no upper-case letter, values non-empty with no `=`. |
| `Notifier.SingleToken` | src/server.ts:212 | A message with no space is parsed as a single token. |
| `Notifier.ParseTokensSpec` | src/server.ts:211-217 | A key is in the map exactly when some token defines it. Its value is the one given by the last token that defines it: later duplicates overwrite. |
| `NotifierExamples.ParseExample` | src/server.ts:211-233 | `"Label=On value=5=9  =x"` parses to `{label: "On", value: "5"}`. Having no type, it becomes a trigger-only emit that drops the value. |
| `Notifier.DecideNotifier` | src/server.ts:221-253 | A missing `label` is refused. A missing `value` gives a trigger-only emit. Each of the types `percentage`, `color` and `timestamp`, spelled exactly, selects its own typed emit when a value is present. Any other type gives a trigger-only emit. Percentage and timestamp values go through `Number()`. No destination is ever passed. |
| `Notifier.NotifierIsEventDispatch` | src/server.ts:221-253 | The notifier's choice equals the `/event` choice for the event its map stands for, with `Number()` applied to percentage and timestamp values. |
| `Notifier.HandleNotifier` | src/server.ts:207-261 | A non-string message is answered 405 with no device call. A message without a label is answered 400 `NoEventLabelSpecified` with no device call. Otherwise exactly the emit its map selects is made, with no destination. The answer is 200 with the emit's result, or 405 with its error. No other status occurs. |
| `EventDispatch.DecideEvent` | src/server.ts:138-169 | Refused exactly when the label is `undefined`/`null`. Trigger-only exactly when the value is absent or the type is not one of the three. Each typed emit happens exactly for its type string. Label, destination and value reach the device unchanged. |
| `EventDispatch.Respond` | src/server.ts:141-173 | A refusal is 400 `NoEventLabelSpecified` with no device call. An emit is one device call; its result gives 200 with that result, and its error gives 405 with that error. |
| `EventDispatch.HandleEvent` | src/server.ts:138-174 | No device call exactly when the label is absent. Otherwise exactly the emit `DecideEvent` selects is made, carrying the destination. Its result is answered 200 `Success(result)`, and its error 405 `Failure(error)`. |
| `EventDispatch.PresenceQuirks` | src/server.ts:142-168 | `0` and `""` are emitted as values. `Percentage` with another casing, or no type at all, drops the value. A null value with a type is trigger-only. A null label is refused. |
| `Guard.TryAcquire` | src/server.ts:72-81 | The Begin step admits exactly when the flag was clear, and the flag is set afterwards either way. |
| `Guard.StepEffects` | src/server.ts:72-125 | A Begin admits exactly when the flag was clear, is rejected exactly when it was set, and leaves the flag set. An End clears the flag and retires its request. No other request changes state. |
| `Guard.MutualExclusion` | src/server.ts:69-125 | For any interleaving of Begin and End steps from a clear flag, at most one request is between its Begin and its End. The flag is set exactly while one is. |
| `Guard.BusyRejectsAll` | src/server.ts:72-75 | While the flag is held, every arriving request is turned away in arrival order, and nothing else changes: there is no queue. |
| `Guard.FirstOfConcurrentWins` | src/server.ts:72-81 | Of several requests arriving with the flag clear and none ending, the first is admitted and all others are turned away. |
| `Guard.ReleaseReadmits` | src/server.ts:123-125 | After the running request's End step, the next request is admitted. |
| `ConnectHandler.CredentialWrites` | src/server.ts:77-79 | The pre-connect writes are file writes only, and none of them is the MAC file. |
| `ConnectHandler.Begin` | src/server.ts:72-81 | Busy exactly when `connecting` was set, with no effect at all. Otherwise the credential writes happen and the flag is set. |
| `ConnectHandler.Authorize` | src/server.ts:84-91 | The authorization steps are signature and key assignments only. |
| `ConnectProperties.AuthorizeExact` | src/server.ts:84-91 | The signature and the key are each assigned exactly when truthy, the signature first. |
| `ConnectProperties.LinksShape` | src/server.ts:93-112 | A MAC connects first, with no scan. Otherwise the scan comes first, and the connect comes last exactly when the scan succeeded, with the whole scan result. The only file these steps write is the MAC file. |
| `ConnectHandler.NoExitBeforeSettle` | src/server.ts:77-119 | Neither the credential writes nor the `try` block schedules the exit: only the `catch` block does. |
| `ConnectHandler.Resolve` | src/server.ts:83-112 | The `try` block's result is the scan's error when a scan is made and fails. Otherwise it is the connect's result or error. |
| `ConnectHandler.Settle` | src/server.ts:113-122 | A success is 200 with the connect result. Every error is 405 with that error. A process exit is scheduled exactly when the error is `"ScanFailed"`. |
| `ConnectHandler.Handle` | src/server.ts:69-126 | Busy gives 405 `ConnectingInProgress`, an empty trace and the flag untouched. Otherwise the flag is clear afterwards on every path. The status is 200 or 405. A failed scan is answered 405 with the scan's error; otherwise a failed connect is answered 405 with the connect's error. A restart is scheduled exactly when the answered error is `"ScanFailed"`. 200 exactly when the connect (and the scan, if any) succeeded, with the connect result. |
| `ConnectProperties.ResolutionBranches` | src/server.ts:93-112 | Exactly one branch runs and at most one connect is made. A MAC connects to `[{mac}]` with no scan. Otherwise there is exactly one scan, filtered by name when a name is given, and a connect to the full scan result exactly when the scan succeeded. That connect comes after the scan. |
| `ConnectProperties.AuthorizeFirst` | src/server.ts:77-91 | The credential writes open the trace. Every signature or key assignment comes before every scan and every connect. |
| `ConnectProperties.RememberedCredentials` | src/server.ts:77-79 | Each credential file is written exactly when `remember` and that credential are both truthy, with that credential as content. |
| `ConnectProperties.AssignsWhenGiven` | src/server.ts:84-91 | The signature and the key are each assigned exactly when truthy. |
| `ConnectProperties.MacRememberedAfterConnect` | src/server.ts:93-97 | With a MAC, the MAC file is written exactly when `remember` is truthy and the connect succeeded, and only after the connect. |
| `ConnectProperties.MacRememberedBeforeConnect` | src/server.ts:100-110 | Without a MAC, the MAC file is written exactly when the scan found at least one controller, its MAC is truthy and `remember` is truthy. The content is that MAC, written after the scan and before the connect. |
| `ConnectProperties.ForgetfulWritesNothing` | src/server.ts:77-79 | A request whose `remember` is falsy writes no file at all: no credential file and no MAC file. |
| `ConnectProperties.EmptyScanStillConnects` | src/server.ts:100-104 | A name that matches nothing still leads to `connect([])`. The answer is whatever connect answers; there is no not-found error. |
| `ConnectProperties.OnlyFirstConnectRuns` | src/server.ts:72-81 | Of connect requests arriving while none has ended, a request is admitted exactly when it is the first and the flag was clear. |
| `ConnectProperties.BeginAllIsGuard` | src/server.ts:72-81 | For requests arriving while none runs, the handler admits a request exactly when the `Guard` model has that request running after the same arrivals. |
| `Firmware.Upload` | src/server.ts:271-279 | The image file is read first. The device is asked to update exactly when the read succeeded, and gets the bytes read. 200 exactly when both succeed, with the device's result. Either error gives 405 with that error. |
| `Firmware.Handle` | src/server.ts:263-283 | Busy gives 405 `AlreadingUploadingFW`, no device call and the flag untouched. Otherwise the upload runs and the flag is clear afterwards, on success or error. |
| `Firmware.UploadsSerialize` | src/server.ts:264-282 | A second upload while the first holds the flag is turned away. Once the first has finished, the next one is admitted. |
| `Variables.ReadOne` | src/server.ts:307-322 | A missing or falsy `name` or `seg_id` gives 400 with no device call. Otherwise one read is made: its value gives 200 `{value}`, its error gives 404 with a fixed message. |
| `Variables.FirstInvalid` | src/server.ts:332-336 | The batch stops at the first item whose `name` or `segId` is falsy (a `segId` of 0 included). Every item before it passes the check. |
| `Variables.ReadUntilInvalid` | src/server.ts:332-346 | The loop stops exactly at the first invalid item, having read every item before it in order. It records each value in `data` and each error in `fails`, in input order. |
| `Variables.ReadBatch` | src/server.ts:325-351 | An invalid item aborts with 400 and no `data`/`fails` body, after the reads already made (500 for a null item or a non-iterable list). Otherwise every item is read in order and the answer is 200 with the successes and the failures. |
| `Variables.Partition` | src/server.ts:338-345 | Every processed item lands in exactly one of `data` and `fails`: their lengths add up to the number of items. |
| `Variables.Membership` | src/server.ts:338-345 | An entry is in `data` exactly when some item's read returned that value. It is in `fails` exactly when some item's read threw that error. |
| `Variables.BatchExample` | src/server.ts:332-346 | For `[{a,1},{b,2}]` where `b` fails, both are read, `data` holds `a` and `fails` holds `b`. A `segId` of 0 stops the batch at that item. |

## Left out

- HTTP plumbing: routing, body-parser, CORS, the catch-all 500 middleware, static
  serving and the redirects (lines 1-19, 285-291, 354-365).
- The event relay (lines 21-53): delivery is done by the SSE library, which is
  not part of this model. Its routing quirks are noted above as plain facts.
- `/disconnect` and `/emit-history` (lines 128-136, 195-205): each is one device
  call mapped to a response. Neither is part of this model.
- `/write-tngl` (lines 176-187) writes `tngl.txt`, reads it back and makes two
  device calls. `/owner` (lines 293-305) only reads three files. Neither is part
  of this model.
- `/scan` and `/tngl-fingerprint` (lines 62-67, 189-193): stubs that answer a
  constant. The unreachable lines 254-255 of `/notifier` are left out too.
- `lastboot.txt` (line 24) and the firmware file's contents: file writes appear
  only as `WriteFile(path, content)` effects. The image is an input.
- File writes and `assignOwnerSignature`/`assignOwnerKey` are modelled as never
  throwing. A throwing credential write at lines 77-79 happens outside the
  `try`, and the handler sends no answer of its own on that path; it is not
  modelled.
- `process.exit` and `setTimeout`: the restart is only the `ScheduleExit` effect.
- Real asynchronous interleaving: concurrency is modelled only as interleaved
  Begin and End steps in `Guard`.
- `Notifier.DecideNotifier`: JavaScript's `Number()` is the uninterpreted
  parameter `toNumber`. The coerced value is opaque, and `NaN` (the result of
  `Number("abc")`) is not represented, since `Js.Value` has no `NaN`.
- `Text.Lower`: lower-casing covers ASCII letters only, not full Unicode
  `toLowerCase`.
- `Notifier.ParseTokens`: a key that lower-cases to `__proto__` is stored in the
  model's map. The JavaScript object would ignore it. The handler only reads
  `label`, `value` and `type`, so no response or call differs.
- `Variables.ReadBatch`: `variables` is either a list of items or not iterable.
  An iterable that is not an array (a string, say) is not modelled. Each item
  is a `{name, segId}` object or `null`/`undefined`.
- `Js.Value`: a number is a real with no `NaN` and no infinity. A JSON body
  cannot produce `NaN`. An overflowing literal such as `1e400` parses to
  `Infinity`, which is not represented; it is truthy and only passed on, so no
  check differs. `Number()` in the notifier can produce `NaN` (see above).
  Arrays, plain objects and thrown `Error` instances are all the one value
  `Object`, so two of them cannot be told apart. No handler looks inside them:
  they are only tested for truthiness or passed on, so no behaviour differs.
- The `console.log` and `console.warn` calls (lines 86 and 343) print
  diagnostics only; they are not modelled.
- `ConnectHandler.Links`: a scan answer is a list of `{mac}` objects. A scan
  answer that is not an array, or a `null` first entry, would throw at lines
  102 or 108 inside the `try` and be answered 405; those answers are not
  modelled.
- A `/event` body that is not an object is not modelled: the body parser always
  supplies an object.

=== FILE: connect.dfy ===
/** `POST /connect` (src/server.ts lines 69-126): remember credentials, authorize, find
    the controller and connect to it, all under the `connecting` flag. Every device
    answer (scan result, connect result) is an input; a call that is not reached
    ignores its input. */
module ConnectHandler {
  import opened Wrappers
  import opened Js
  import opened Device
  import opened Http
  import Guard

  const OwnerSignatureFile: string := "assets/ownersignature.txt"
  const OwnerKeyFile: string := "assets/ownerkey.txt"
  const NetworkFile: string := "assets/network.txt"
  const MacFile: string := "assets/mac.txt"
  const ConnectingInProgress: string := "ConnectingInProgress"

  /** The one error value that also schedules a process restart. */
  const ScanFailed: Value := Str("ScanFailed")

  /** The request body; a missing field is `Undefined`. */
  datatype Request = Request(key: Value, signature: Value, mac: Value, name: Value, remember: Value, network: Value)

  const BusyResponse: Response := Response(NotAllowed, Failure(Str(ConnectingInProgress)))

  /** The credential files, each written only when both `remember` and that credential
      are truthy: after the busy check, before the flag is set and outside the `try`. */
  function CredentialWrites(req: Request): (t: seq<Effect>)
    ensures forall i :: 0 <= i < |t| ==> t[i].WriteFile? && t[i].path != MacFile
  {
    var r := Truthy(req.remember);
    (if r && Truthy(req.signature) then [WriteFile(OwnerSignatureFile, req.signature)] else [])
    + (if r && Truthy(req.key) then [WriteFile(OwnerKeyFile, req.key)] else [])
    + (if r && Truthy(req.network) then [WriteFile(NetworkFile, req.network)] else [])
  }

  /** The Begin step: answer "busy" with no effect at all, or write the credentials and
      take the flag. */
  datatype Begun = Rejected | Admitted(writes: seq<Effect>)

  function Begin(connecting: bool, req: Request): (r: (Begun, bool))
    ensures r.1
    ensures r.0.Rejected? <==> connecting
    ensures r.0.Admitted? ==> r.0.writes == CredentialWrites(req)
  {
    var (a, held) := Guard.TryAcquire(connecting);
    if a == Guard.Busy then (Rejected, held) else (Admitted(CredentialWrites(req)), held)
  }

  /** The local authorization calls, signature first. */
  function Authorize(req: Request): (t: seq<Effect>)
    ensures forall i :: 0 <= i < |t| ==> KindOf(t[i]) == KAssign
  {
    (if Truthy(req.signature) then [AssignSignature(req.signature)] else [])
    + (if Truthy(req.key) then [AssignKey(req.key)] else [])
  }

  /** `[{ name }]` when a name is given, `[{}]` otherwise. */
  function FilterOf(req: Request): ScanFilter
  {
    if Truthy(req.name) then ByName(req.name) else AnyDevice
  }

  /** Remember the first controller found: only when the scan found at least one, its
      MAC is truthy and `remember` is truthy. */
  function RememberFirst(req: Request, cs: seq<Controller>): seq<Effect>
  {
    if |cs| != 0 && Truthy(cs[0].mac) && Truthy(req.remember) then [WriteFile(MacFile, cs[0].mac)] else []
  }

  /** What the `try` block did: the value it returned or the error it threw, and its effects. */
  datatype Attempt = Attempt(result: Result<Value, Value>, trace: seq<Effect>)

  /** The scan, remember and connect calls of the `try` block, by specificity: a MAC
      connects directly and remembers it afterwards; otherwise a filtered or unfiltered
      scan is followed by remembering the first MAC found and connecting to the whole
      scan result, empty or not. */
  function Links(req: Request, scan: Result<seq<Controller>, Value>, connect: Result<Value, Value>): seq<Effect>
  {
    if Truthy(req.mac) then
      [Connect([Controller(req.mac)])]
      + (if connect.Ok? && Truthy(req.remember) then [WriteFile(MacFile, req.mac)] else [])
    else
      match scan
      case Err(_) => [Scan(FilterOf(req))]
      case Ok(cs) => [Scan(FilterOf(req))] + RememberFirst(req, cs) + [Connect(cs)]
  }

  /** The `try` block: authorize, then resolve the target. */
  function Resolve(req: Request, scan: Result<seq<Controller>, Value>, connect: Result<Value, Value>): (a: Attempt)
    // the first failing device call decides the error
    ensures a.result == (if !Truthy(req.mac) && scan.Err? then Err(scan.error) else connect)
    ensures a.trace == Authorize(req) + Links(req, scan, connect)
  {
    var auth := Authorize(req);
    if Truthy(req.mac) then Attempt(connect, auth + Links(req, scan, connect))
    else
      match scan
      case Err(e) => Attempt(Err(e), auth + Links(req, scan, connect))
      case Ok(cs) => Attempt(connect, auth + Links(req, scan, connect))
  }

  /** The `catch` block: every error is answered with 405, and a `"ScanFailed"` error,
      whichever call threw it, also schedules the process exit. */
  function Settle(result: Result<Value, Value>): (r: (Response, seq<Effect>))
    ensures result.Ok? ==> r == (Response(OK, Success(result.value)), [])
    ensures result.Err? ==> r.0 == Response(NotAllowed, Failure(result.error))
    ensures r.1 == [ScheduleExit] <==> result == Err(ScanFailed)
    ensures r.1 == [] <==> result != Err(ScanFailed)
  {
    match result
    case Ok(v) => (Response(OK, Success(v)), [])
    case Err(e) => (Response(NotAllowed, Failure(e)), if e == ScanFailed then [ScheduleExit] else [])
  }

  /** `POST /connect`: Begin, the `try`/`catch`, and the End step (`finally`), which
      clears the flag on every path past Begin. */
  function Handle(connecting: bool, req: Request, scan: Result<seq<Controller>, Value>, connect: Result<Value, Value>): (r: Guarded)
    // busy: rejected with no effect at all, flag untouched
    ensures connecting ==> r == Guarded(Outcome(BusyResponse, []), true)
    // the flag never stays set past a request that took it
    ensures !connecting ==> !r.held
    ensures r.outcome.response.status in {OK, NotAllowed}
    ensures r.outcome.response.status == NotAllowed ==> r.outcome.response.body.Failure?
    // an admitted request that fails is answered with the error of the call that threw
    ensures !connecting && !Truthy(req.mac) && scan.Err? ==>
              r.outcome.response == Response(NotAllowed, Failure(scan.error))
    ensures !connecting && (Truthy(req.mac) || scan.Ok?) && connect.Err? ==>
              r.outcome.response == Response(NotAllowed, Failure(connect.error))
    // a restart is scheduled exactly when the error answered is "ScanFailed"
    ensures ScheduleExit in r.outcome.trace <==> r.outcome.response == Response(NotAllowed, Failure(ScanFailed))
    // success is the connect call's own result
    ensures r.outcome.response.status == OK <==> !connecting && (Truthy(req.mac) || scan.Ok?) && connect.Ok?
    ensures r.outcome.response.status == OK ==> r.outcome.response.body == Success(connect.value)
  {
    var (begun, held) := Begin(connecting, req);
    match begun
    case Rejected => Guarded(Outcome(BusyResponse, []), held)
    case Admitted(writes) =>
      var attempt := Resolve(req, scan, connect);
      var (response, tail) := Settle(attempt.result);
      NoExitBeforeSettle(req, scan, connect);
      assert ScheduleExit in writes + attempt.trace + tail <==> ScheduleExit in tail;
      Guarded(Outcome(response, writes + attempt.trace + tail), false)
  }

  /** Only the `catch` block schedules the exit. */
  lemma NoExitBeforeSettle(req: Request, scan: Result<seq<Controller>, Value>, connect: Result<Value, Value>)
    ensures ScheduleExit !in CredentialWrites(req) + Resolve(req, scan, connect).trace
  {
    var w := CredentialWrites(req);
    var a := Authorize(req);
    var l := Links(req, scan, connect);
    assert ScheduleExit !in w;
    assert ScheduleExit !in a;
    assert ScheduleExit !in l by {
      if Truthy(req.mac) {
        assert l == [Connect([Controller(req.mac)])]
          + (if connect.Ok? && Truthy(req.remember) then [WriteFile(MacFile, req.mac)] else []);
      } else if scan.Ok? {
        assert l == [Scan(FilterOf(req))] + RememberFirst(req, scan.value) + [Connect(scan.value)];
      }
    }
    assert w + Resolve(req, scan, connect).trace == w + (a + l);
  }
}

module ConnectProperties {
  import opened Wrappers
  import opened Js
  import opened Device
  import opened Http
  import opened ConnectHandler
  import Guard

  /** The trace of an admitted request, piece by piece. */
  lemma TraceParts(req: Request, scan: Result<seq<Controller>, Value>, connect: Result<Value, Value>)
    ensures Handle(false, req, scan, connect).outcome.trace
            == CredentialWrites(req) + Authorize(req) + Links(req, scan, connect)
               + Settle(Resolve(req, scan, connect).result).1
  {
    var (b, held) := Begin(false, req);
    assert b == Admitted(CredentialWrites(req));
    assert Resolve(req, scan, connect).trace == Authorize(req) + Links(req, scan, connect);
  }

  /** Counting over the four parts of an admitted trace. */
  lemma CountParts(w: seq<Effect>, a: seq<Effect>, l: seq<Effect>, x: seq<Effect>, k: Kind)
    ensures Count(w + a + l + x, k) == Count(w, k) + Count(a, k) + Count(l, k) + Count(x, k)
  {
    CountAppend(w, a, k);
    CountAppend(w + a, l, k);
    CountAppend(w + a + l, x, k);
  }

  lemma AuthorizeCount(req: Request, k: Kind)
    requires k != KAssign
    ensures Count(Authorize(req), k) == 0
  {
  }

  lemma SettleCount(result: Result<Value, Value>, k: Kind)
    requires k != KExit
    ensures Count(Settle(result).1, k) == 0
  {
    assert Settle(result).1 == [] || Settle(result).1 == [ScheduleExit];
  }

  lemma LinksKinds(req: Request, scan: Result<seq<Controller>, Value>, connect: Result<Value, Value>)
    ensures Count(Links(req, scan, connect), KAssign) == 0
    ensures Count(Links(req, scan, connect), KExit) == 0
    ensures Truthy(req.mac) ==> Count(Links(req, scan, connect), KScan) == 0
    ensures Truthy(req.mac) ==> Count(Links(req, scan, connect), KConnect) == 1
    ensures !Truthy(req.mac) ==> Count(Links(req, scan, connect), KScan) == 1
    ensures !Truthy(req.mac) ==> Count(Links(req, scan, connect), KConnect) == (if scan.Ok? then 1 else 0)
  {
    if Truthy(req.mac) {
      MacLinksKinds(req, connect);
    } else if scan.Ok? {
      ScanLinksKinds(req, scan.value);
    } else {
      assert Links(req, scan, connect) == [Scan(FilterOf(req))];
    }
  }

  lemma MacLinksKinds(req: Request, connect: Result<Value, Value>)
    requires Truthy(req.mac)
    ensures forall scan: Result<seq<Controller>, Value> :: Links(req, scan, connect) == Links(req, Err(Undefined), connect)
    ensures var l := Links(req, Err(Undefined), connect);
      Count(l, KAssign) == 0 && Count(l, KExit) == 0 && Count(l, KScan) == 0 && Count(l, KConnect) == 1
  {
    var rem := if connect.Ok? && Truthy(req.remember) then [WriteFile(MacFile, req.mac)] else [];
    assert Links(req, Err(Undefined), connect) == [Connect([Controller(req.mac)])] + rem;
    CountAppend([Connect([Controller(req.mac)])], rem, KConnect);
  }

  lemma ScanLinksKinds(req: Request, cs: seq<Controller>)
    requires !Truthy(req.mac)
    ensures forall connect: Result<Value, Value> :: Links(req, Ok(cs), connect) == [Scan(FilterOf(req))] + RememberFirst(req, cs) + [Connect(cs)]
    ensures var l := [Scan(FilterOf(req))] + RememberFirst(req, cs) + [Connect(cs)];
      Count(l, KAssign) == 0 && Count(l, KExit) == 0 && Count(l, KScan) == 1 && Count(l, KConnect) == 1
  {
    var head := [Scan(FilterOf(req))] + RememberFirst(req, cs);
    CountAppend([Scan(FilterOf(req))], RememberFirst(req, cs), KScan);
    CountAppend([Scan(FilterOf(req))], RememberFirst(req, cs), KConnect);
    CountAppend(head, [Connect(cs)], KScan);
    CountAppend(head, [Connect(cs)], KConnect);
  }

  /** Only the device-link part of an admitted trace scans or connects. */
  lemma CountLinks(req: Request, scan: Result<seq<Controller>, Value>, connect: Result<Value, Value>, k: Kind)
    requires k == KScan || k == KConnect
    ensures Count(Handle(false, req, scan, connect).outcome.trace, k) == Count(Links(req, scan, connect), k)
  {
    TraceParts(req, scan, connect);
    CredentialCount(req, k);
    AuthorizeCount(req, k);
    SettleCount(Resolve(req, scan, connect).result, k);
    CountParts(CredentialWrites(req), Authorize(req), Links(req, scan, connect),
               Settle(Resolve(req, scan, connect).result).1, k);
  }

  /** Exactly one resolution branch runs: a MAC connects to `[{ mac }]` without scanning;
      otherwise there is exactly one scan, filtered by name when a name is given, and
      a connect to the full scan result when the scan succeeded. */
  lemma ResolutionBranches(req: Request, scan: Result<seq<Controller>, Value>, connect: Result<Value, Value>)
    ensures var t := Handle(false, req, scan, connect).outcome.trace;
      && Count(t, KConnect) <= 1
      && (Truthy(req.mac) ==>
            Count(t, KScan) == 0 && Count(t, KConnect) == 1 && Connect([Controller(req.mac)]) in t)
      && (!Truthy(req.mac) && Truthy(req.name) ==>
            Count(t, KScan) == 1 && Scan(ByName(req.name)) in t)
      && (!Truthy(req.mac) && !Truthy(req.name) ==>
            Count(t, KScan) == 1 && Scan(AnyDevice) in t)
      && (!Truthy(req.mac) && scan.Ok? ==> Count(t, KConnect) == 1 && Connect(scan.value) in t)
      && (!Truthy(req.mac) && scan.Ok? ==> Before(t, Scan(FilterOf(req)), Connect(scan.value)))
      && (!Truthy(req.mac) && scan.Err? ==> Count(t, KConnect) == 0)
  {
    if Truthy(req.mac) {
      MacBranch(req, scan, connect);
    } else {
      ScanBranch(req, scan, connect);
    }
  }

  /** An admitted trace holds the link effects contiguously. */
  lemma LinksInTrace(req: Request, scan: Result<seq<Controller>, Value>, connect: Result<Value, Value>, i: nat)
    requires i < |Links(req, scan, connect)|
    ensures Links(req, scan, connect)[i] in Handle(false, req, scan, connect).outcome.trace
  {
    TraceParts(req, scan, connect);
    var t := Handle(false, req, scan, connect).outcome.trace;
    var p := CredentialWrites(req) + Authorize(req);
    assert t[|p| + i] == Links(req, scan, connect)[i];
  }

  /** The shape of the device-link steps: a MAC connects first, with no scan; otherwise
      the scan comes first, and the connect comes last exactly when the scan succeeded.
      The only file these steps write is the MAC file. */
  lemma LinksShape(req: Request, scan: Result<seq<Controller>, Value>, connect: Result<Value, Value>)
    ensures var l := Links(req, scan, connect);
      && |l| >= 1
      && (Truthy(req.mac) ==> l[0] == Connect([Controller(req.mac)]))
      && (!Truthy(req.mac) ==> l[0] == Scan(FilterOf(req)))
      && (!Truthy(req.mac) ==> (l[|l| - 1].Connect? <==> scan.Ok?))
      && (!Truthy(req.mac) && scan.Ok? ==> |l| >= 2 && l[|l| - 1] == Connect(scan.value))
      && (forall i :: 0 <= i < |l| ==> l[i].WriteFile? ==> l[i].path == MacFile)
  {
  }

  /** Each credential is assigned exactly when truthy, the signature before the key. */
  lemma AuthorizeExact(req: Request)
    ensures var t := Authorize(req);
      && (AssignSignature(req.signature) in t <==> Truthy(req.signature))
      && (AssignKey(req.key) in t <==> Truthy(req.key))
      && (|t| == 2 ==> t == [AssignSignature(req.signature), AssignKey(req.key)])
  {
  }

  lemma ScanBeforeConnect(req: Request, scan: Result<seq<Controller>, Value>, connect: Result<Value, Value>)
    requires !Truthy(req.mac) && scan.Ok?
    ensures Before(Handle(false, req, scan, connect).outcome.trace, Scan(FilterOf(req)), Connect(scan.value))
  {
    var l := Links(req, scan, connect);
    TraceParts(req, scan, connect);
    var t := Handle(false, req, scan, connect).outcome.trace;
    var n := |CredentialWrites(req) + Authorize(req)|;
    assert t[n] == l[0];
    assert t[n + |l| - 1] == l[|l| - 1];
  }

  lemma MacBranch(req: Request, scan: Result<seq<Controller>, Value>, connect: Result<Value, Value>)
    requires Truthy(req.mac)
    ensures var t := Handle(false, req, scan, connect).outcome.trace;
      Count(t, KScan) == 0 && Count(t, KConnect) == 1 && Connect([Controller(req.mac)]) in t
  {
    LinksKinds(req, scan, connect);
    CountLinks(req, scan, connect, KScan);
    CountLinks(req, scan, connect, KConnect);
    assert Links(req, scan, connect)[0] == Connect([Controller(req.mac)]);
    LinksInTrace(req, scan, connect, 0);
  }

  lemma ScanBranch(req: Request, scan: Result<seq<Controller>, Value>, connect: Result<Value, Value>)
    requires !Truthy(req.mac)
    ensures var t := Handle(false, req, scan, connect).outcome.trace;
      && Count(t, KScan) == 1 && Scan(FilterOf(req)) in t
      && Count(t, KConnect) == (if scan.Ok? then 1 else 0)
      && (scan.Ok? ==> Connect(scan.value) in t)
      && (scan.Ok? ==> Before(t, Scan(FilterOf(req)), Connect(scan.value)))
  {
    var l := Links(req, scan, connect);
    LinksKinds(req, scan, connect);
    CountLinks(req, scan, connect, KScan);
    CountLinks(req, scan, connect, KConnect);
    assert l[0] == Scan(FilterOf(req));
    LinksInTrace(req, scan, connect, 0);
    if scan.Ok? {
      assert l[|l| - 1] == Connect(scan.value);
      LinksInTrace(req, scan, connect, |l| - 1);
      ScanBeforeConnect(req, scan, connect);
    }
  }

  lemma AssignsBeforeLinks(p: seq<Effect>, q: seq<Effect>)
    requires Count(p, KScan) == 0 && Count(p, KConnect) == 0 && Count(q, KAssign) == 0
    ensures Precedes(p + q, KAssign, KScan) && Precedes(p + q, KAssign, KConnect)
  {
    PrecedesBySplit(p, q, KAssign, KScan);
    PrecedesBySplit(p, q, KAssign, KConnect);
  }

  lemma AuthorizeFirstParts(req: Request, scan: Result<seq<Controller>, Value>, connect: Result<Value, Value>)
    ensures var t := CredentialWrites(req) + Authorize(req) + Links(req, scan, connect)
                     + Settle(Resolve(req, scan, connect).result).1;
      && Precedes(t, KAssign, KScan)
      && Precedes(t, KAssign, KConnect)
      && t[..|CredentialWrites(req)|] == CredentialWrites(req)
  {
    var w := CredentialWrites(req);
    var a := Authorize(req);
    var l := Links(req, scan, connect);
    var x := Settle(Resolve(req, scan, connect).result).1;
    LinksKinds(req, scan, connect);
    SettleCount(Resolve(req, scan, connect).result, KAssign);
    CountAppend(l, x, KAssign);
    CredentialCount(req, KScan);
    CredentialCount(req, KConnect);
    AuthorizeCount(req, KScan);
    AuthorizeCount(req, KConnect);
    CountAppend(w, a, KScan);
    CountAppend(w, a, KConnect);
    assert w + a + l + x == (w + a) + (l + x);
    AssignsBeforeLinks(w + a, l + x);
    assert (w + a + l + x)[..|w|] == w;
  }

  lemma CredentialCount(req: Request, k: Kind)
    requires k != KWrite
    ensures Count(CredentialWrites(req), k) == 0
  {
  }

  /** The signature and the key are assigned before any scan or connect, and the
      credential files are written before both. */
  lemma AuthorizeFirst(req: Request, scan: Result<seq<Controller>, Value>, connect: Result<Value, Value>)
    ensures var t := Handle(false, req, scan, connect).outcome.trace;
      && Precedes(t, KAssign, KScan)
      && Precedes(t, KAssign, KConnect)
      && t[..|CredentialWrites(req)|] == CredentialWrites(req)
  {
    AuthorizeFirstParts(req, scan, connect);
    TraceParts(req, scan, connect);
  }

  /** The credential files written are exactly those given, and only when asked to
      remember. */
  lemma RememberedCredentials(req: Request)
    ensures !Truthy(req.remember) ==> CredentialWrites(req) == []
    ensures (WriteFile(OwnerSignatureFile, req.signature) in CredentialWrites(req)) <==>
            Truthy(req.remember) && Truthy(req.signature)
    ensures (WriteFile(OwnerKeyFile, req.key) in CredentialWrites(req)) <==>
            Truthy(req.remember) && Truthy(req.key)
    ensures (WriteFile(NetworkFile, req.network) in CredentialWrites(req)) <==>
            Truthy(req.remember) && Truthy(req.network)
  {
  }

  /** Where in an admitted trace an effect of a given shape can sit. */
  lemma Placement(req: Request, scan: Result<seq<Controller>, Value>, connect: Result<Value, Value>, e: Effect)
    ensures var t := Handle(false, req, scan, connect).outcome.trace;
      && (KindOf(e) == KAssign ==> (e in t <==> e in Authorize(req)))
      && ((e.WriteFile? && e.path == MacFile) || e.Connect? ==> (e in t <==> e in Links(req, scan, connect)))
  {
    var w := CredentialWrites(req);
    var a := Authorize(req);
    var l := Links(req, scan, connect);
    var x := Settle(Resolve(req, scan, connect).result).1;
    assert x == [] || x == [ScheduleExit];
    TraceParts(req, scan, connect);
    var t := w + a + l + x;
    assert forall i :: 0 <= i < |t| ==> t[i] in w || t[i] in a || t[i] in l || t[i] in x;
    if KindOf(e) == KAssign {
      LinksKinds(req, scan, connect);
      assert e !in l;
    }
  }

  /** The signature and the key are assigned exactly when given. */
  lemma AssignsWhenGiven(req: Request, scan: Result<seq<Controller>, Value>, connect: Result<Value, Value>)
    ensures var t := Handle(false, req, scan, connect).outcome.trace;
      && (AssignSignature(req.signature) in t <==> Truthy(req.signature))
      && (AssignKey(req.key) in t <==> Truthy(req.key))
  {
    Placement(req, scan, connect, AssignSignature(req.signature));
    Placement(req, scan, connect, AssignKey(req.key));
  }

  /** With a MAC, the MAC file is written only after the connect succeeded. */
  lemma MacRememberedAfterConnect(req: Request, scan: Result<seq<Controller>, Value>, connect: Result<Value, Value>)
    requires Truthy(req.mac)
    ensures var t := Handle(false, req, scan, connect).outcome.trace;
      && (WriteFile(MacFile, req.mac) in t <==> Truthy(req.remember) && connect.Ok?)
      && (WriteFile(MacFile, req.mac) in t ==> Before(t, Connect([Controller(req.mac)]), WriteFile(MacFile, req.mac)))
  {
    Placement(req, scan, connect, WriteFile(MacFile, req.mac));
    var w := CredentialWrites(req);
    var a := Authorize(req);
    var l := Links(req, scan, connect);
    var x := Settle(Resolve(req, scan, connect).result).1;
    TraceParts(req, scan, connect);
    var t := w + a + l + x;
    if Truthy(req.remember) && connect.Ok? {
      var n := |w| + |a|;
      assert t[n] == Connect([Controller(req.mac)]) && t[n + 1] == WriteFile(MacFile, req.mac);
    }
  }

  /** Without a MAC, the MAC file is written exactly when the scan found at least one
      controller, its MAC is truthy and `remember` is truthy, with that MAC as content;
      the write comes after the scan and before the connect. */
  lemma MacRememberedBeforeConnect(req: Request, scan: Result<seq<Controller>, Value>, connect: Result<Value, Value>, mac: Value)
    requires !Truthy(req.mac)
    ensures var t := Handle(false, req, scan, connect).outcome.trace;
      && (WriteFile(MacFile, mac) in t <==>
            scan.Ok? && |scan.value| != 0 && Truthy(scan.value[0].mac) && Truthy(req.remember)
            && mac == scan.value[0].mac)
      && (WriteFile(MacFile, mac) in t ==>
            Before(t, Scan(FilterOf(req)), WriteFile(MacFile, mac))
            && Before(t, WriteFile(MacFile, mac), Connect(scan.value)))
  {
    Placement(req, scan, connect, WriteFile(MacFile, mac));
    if scan.Ok? {
      var l := Links(req, scan, connect);
      var rem := RememberFirst(req, scan.value);
      assert l == [Scan(FilterOf(req))] + rem + [Connect(scan.value)];
      assert WriteFile(MacFile, mac) in l <==> WriteFile(MacFile, mac) in rem;
      if WriteFile(MacFile, mac) in rem {
        ScanOrder(req, scan, connect);
      }
    } else {
      assert Links(req, scan, connect) == [Scan(FilterOf(req))];
    }
  }

  lemma ScanOrder(req: Request, scan: Result<seq<Controller>, Value>, connect: Result<Value, Value>)
    requires !Truthy(req.mac) && scan.Ok? && |scan.value| != 0 && Truthy(scan.value[0].mac) && Truthy(req.remember)
    ensures var t := Handle(false, req, scan, connect).outcome.trace;
      && Before(t, Scan(FilterOf(req)), WriteFile(MacFile, scan.value[0].mac))
      && Before(t, WriteFile(MacFile, scan.value[0].mac), Connect(scan.value))
  {
    var w := CredentialWrites(req);
    var a := Authorize(req);
    var l := Links(req, scan, connect);
    var x := Settle(Resolve(req, scan, connect).result).1;
    TraceParts(req, scan, connect);
    var t := w + a + l + x;
    var n := |w| + |a|;
    assert l == [Scan(FilterOf(req)), WriteFile(MacFile, scan.value[0].mac), Connect(scan.value)];
    assert t[n] == l[0] && t[n + 1] == l[1] && t[n + 2] == l[2];
  }

  /** A request that does not ask to be remembered writes no file at all. */
  lemma ForgetfulWritesNothing(req: Request, scan: Result<seq<Controller>, Value>, connect: Result<Value, Value>)
    requires !Truthy(req.remember)
    ensures forall e :: e in Handle(false, req, scan, connect).outcome.trace ==> !e.WriteFile?
  {
    var t := Handle(false, req, scan, connect).outcome.trace;
    ForgetfulCount(req, scan, connect);
    forall e: Effect | e in t
      ensures !e.WriteFile?
    {
      var i :| 0 <= i < |t| && t[i] == e;
      assert KindOf(t[i]) != KWrite;
    }
  }

  lemma ForgetfulCount(req: Request, scan: Result<seq<Controller>, Value>, connect: Result<Value, Value>)
    requires !Truthy(req.remember)
    ensures Count(Handle(false, req, scan, connect).outcome.trace, KWrite) == 0
  {
    TraceParts(req, scan, connect);
    RememberedCredentials(req);
    AuthorizeCount(req, KWrite);
    ForgetfulLinks(req, scan, connect);
    SettleCount(Resolve(req, scan, connect).result, KWrite);
    CountParts(CredentialWrites(req), Authorize(req), Links(req, scan, connect),
               Settle(Resolve(req, scan, connect).result).1, KWrite);
  }

  lemma ForgetfulLinks(req: Request, scan: Result<seq<Controller>, Value>, connect: Result<Value, Value>)
    requires !Truthy(req.remember)
    ensures Count(Links(req, scan, connect), KWrite) == 0
  {
    var l := Links(req, scan, connect);
    if Truthy(req.mac) {
      assert l == [Connect([Controller(req.mac)])];
    } else if scan.Ok? {
      assert l == [Scan(FilterOf(req)), Connect(scan.value)];
    } else {
      assert l == [Scan(FilterOf(req))];
    }
  }

  /** A name that matches nothing is not an error of its own: the handler still calls
      connect, with the empty scan result, and answers whatever connect answers. */
  lemma EmptyScanStillConnects(req: Request, connect: Result<Value, Value>)
    requires !Truthy(req.mac) && Truthy(req.name)
    ensures var r := Handle(false, req, Ok([]), connect);
      && Connect([]) in r.outcome.trace
      && r.outcome.response == (if connect.Ok? then Response(OK, Success(connect.value))
                                 else Response(NotAllowed, Failure(connect.error)))
  {
    ResolutionBranches(req, Ok([]), connect);
  }

  /** The Begin steps of requests that arrive one after another while none has ended. */
  function BeginAll(connecting: bool, reqs: seq<Request>): (r: seq<Begun>)
    ensures |r| == |reqs|
    decreases |reqs|
  {
    if |reqs| == 0 then []
    else
      var (b, held) := Begin(connecting, reqs[0]);
      [b] + BeginAll(held, reqs[1..])
  }

  /** Of connect requests arriving while none is in flight, only the first is admitted;
      every later one is answered "busy" with no effect. */
  lemma {:induction false} OnlyFirstConnectRuns(connecting: bool, reqs: seq<Request>)
    ensures forall i :: 0 <= i < |reqs| ==>
              (BeginAll(connecting, reqs)[i].Admitted? <==> i == 0 && !connecting)
    decreases |reqs|
  {
    if |reqs| > 0 {
      OnlyFirstConnectRuns(true, reqs[1..]);
      var r := BeginAll(connecting, reqs);
      assert r[1..] == BeginAll(true, reqs[1..]);
      assert forall i :: 1 <= i < |reqs| ==> r[i] == r[1..][i - 1];
    }
  }

  /** The handler's Begin steps agree with the guard model: for requests arriving while
      none runs, a request is admitted by the handler exactly when the guard model has it
      running after the same arrivals. */
  lemma BeginAllIsGuard(reqs: seq<Request>, w: Guard.World, ids: seq<nat>)
    requires Guard.Exclusive(w) && !w.held && |ids| == |reqs| >= 1
    requires forall i, j :: 0 <= i < j < |ids| ==> ids[i] != ids[j]
    ensures Guard.Schedule(w, Guard.Begins(ids))
    ensures forall i :: 0 <= i < |reqs| ==>
              (BeginAll(false, reqs)[i].Admitted? <==> ids[i] in Guard.Run(w, Guard.Begins(ids)).running)
  {
    Guard.FirstOfConcurrentWins(w, ids);
    OnlyFirstConnectRuns(false, reqs);
  }
}

=== FILE: device.dfy ===
/** What the gateway asks of the device module and of the file system, recorded as an
    ordered trace of effects. The device module itself is not part of this model: every
    answer it gives is an input to the handler that awaits it. */
module Device {
  import opened Js

  /** One entry of a scan result (or the `{ mac }` literal the handler builds). */
  datatype Controller = Controller(mac: Value)

  /** The argument of `spectodaDevice.scan`: `[{ name }]` or `[{}]`. */
  datatype ScanFilter = ByName(name: Value) | AnyDevice

  /** The four emit operations and the arguments the handlers pass them. */
  datatype Emit =
    | EmitEvent(eventLabel: Value, destination: Value)
    | EmitPercentage(eventLabel: Value, value: Value, destination: Value)
    | EmitColor(eventLabel: Value, value: Value, destination: Value)
    | EmitTimestamp(eventLabel: Value, value: Value, destination: Value)

  /** One observable interaction of a handler, in the order it happens. */
  datatype Effect =
    | WriteFile(path: string, content: Value)
    | ReadFile(path: string)
    | AssignSignature(signature: Value)
    | AssignKey(key: Value)
    | Scan(filter: ScanFilter)
    | Connect(targets: seq<Controller>)
    | ScheduleExit
    | EmitCall(call: Emit)
    | UpdateFirmware(image: seq<bv8>)
    | ReadVariable(name: Value, segId: Value)

  /** The constructor of an effect, forgetting its arguments. */
  datatype Kind = KWrite | KRead | KAssign | KScan | KConnect | KExit | KEmit | KFirmware | KReadVar

  function KindOf(e: Effect): Kind
  {
    match e
    case WriteFile(_, _) => KWrite
    case ReadFile(_) => KRead
    case AssignSignature(_) => KAssign
    case AssignKey(_) => KAssign
    case Scan(_) => KScan
    case Connect(_) => KConnect
    case ScheduleExit => KExit
    case EmitCall(_) => KEmit
    case UpdateFirmware(_) => KFirmware
    case ReadVariable(_, _) => KReadVar
  }

  /** How many effects of kind `k` the trace holds. */
  function Count(t: seq<Effect>, k: Kind): (n: nat)
    ensures n <= |t|
    ensures n == 0 <==> forall i :: 0 <= i < |t| ==> KindOf(t[i]) != k
  {
    if |t| == 0 then 0
    else (if KindOf(t[0]) == k then 1 else 0) + Count(t[1..], k)
  }

  lemma {:induction false} CountAppend(a: seq<Effect>, b: seq<Effect>, k: Kind)
    ensures Count(a + b, k) == Count(a, k) + Count(b, k)
    decreases |a|
  {
    if |a| == 0 {
      assert a + b == b;
    } else {
      assert (a + b)[1..] == a[1..] + b;
      CountAppend(a[1..], b, k);
    }
  }

  /** Every effect of kind `x` comes before every effect of kind `y`. */
  predicate Precedes(t: seq<Effect>, x: Kind, y: Kind)
  {
    forall i, j :: 0 <= i < |t| && 0 <= j < |t| && KindOf(t[i]) == x && KindOf(t[j]) == y ==> i < j
  }

  /** A trace whose first part holds no `y` and whose second part holds no `x` puts
      every `x` before every `y`. */
  lemma PrecedesBySplit(p: seq<Effect>, q: seq<Effect>, x: Kind, y: Kind)
    requires Count(p, y) == 0 && Count(q, x) == 0
    ensures Precedes(p + q, x, y)
  {
    var t := p + q;
    assert forall k :: 0 <= k < |p| ==> t[k] == p[k];
    assert forall k :: |p| <= k < |t| ==> t[k] == q[k - |p|];
  }

  /** Effect `a` occurs strictly before effect `b` somewhere in the trace. */
  predicate Before(t: seq<Effect>, a: Effect, b: Effect)
  {
    exists i, j :: 0 <= i < j < |t| && t[i] == a && t[j] == b
  }
}

=== FILE: event.dfy ===
/** `POST /event`: validate a device event and choose which emit operation to call
    (src/server.ts lines 138-174). */
module EventDispatch {
  import opened Wrappers
  import opened Js
  import opened Device
  import opened Http

  /** The request body, shaped like `SpectodaEvent`; a missing field is `Undefined`.
      Nothing checks the declared field types at run time, so every field is any value. */
  datatype Event = Event(eventLabel: Value, value: Value, kind: Value, destination: Value)

  /** Either the request is refused before any device call, or exactly one emit is made. */
  datatype Decision = RejectNoLabel | Emit(call: Device.Emit)

  const NoEventLabelSpecified: string := "NoEventLabelSpecified"

  /** The three `type` strings that select a typed emit; compared with `===`. */
  predicate IsTyped(kind: Value)
  {
    kind == Str("percentage") || kind == Str("color") || kind == Str("timestamp")
  }

  /** Which call `/event` makes for a body. */
  function DecideEvent(ev: Event): (d: Decision)
    // a label is required, and null counts as missing
    ensures d.RejectNoLabel? <==> Nullish(ev.eventLabel)
    // the label and the destination reach the device unchanged, whatever the call
    ensures d.Emit? ==> d.call.eventLabel == ev.eventLabel && d.call.destination == ev.destination
    // trigger-only exactly when the value is absent or the type is not one of the three
    ensures d.Emit? ==> (d.call.EmitEvent? <==> Nullish(ev.value) || !IsTyped(ev.kind))
    ensures (d.Emit? && d.call.EmitPercentage?) <==>
              !Nullish(ev.eventLabel) && !Nullish(ev.value) && ev.kind == Str("percentage")
    ensures (d.Emit? && d.call.EmitColor?) <==>
              !Nullish(ev.eventLabel) && !Nullish(ev.value) && ev.kind == Str("color")
    ensures (d.Emit? && d.call.EmitTimestamp?) <==>
              !Nullish(ev.eventLabel) && !Nullish(ev.value) && ev.kind == Str("timestamp")
    // a typed emit carries the value as given (the TypeScript casts convert nothing)
    ensures d.Emit? && !d.call.EmitEvent? ==> d.call.value == ev.value
  {
    if Nullish(ev.eventLabel) then RejectNoLabel
    else if Nullish(ev.value) then Emit(EmitEvent(ev.eventLabel, ev.destination))
    else if ev.kind == Str("percentage") then Emit(EmitPercentage(ev.eventLabel, ev.value, ev.destination))
    else if ev.kind == Str("color") then Emit(EmitColor(ev.eventLabel, ev.value, ev.destination))
    else if ev.kind == Str("timestamp") then Emit(EmitTimestamp(ev.eventLabel, ev.value, ev.destination))
    else Emit(EmitEvent(ev.eventLabel, ev.destination))
  }

  /** Turn a decision and the device's answer to the emit into the response: shared by
      `/event` and `/notifier`, whose `catch` blocks both answer 405. */
  function Respond(d: Decision, outcome: Result<Value, Value>): (r: Outcome)
    ensures d.RejectNoLabel? ==> r == Outcome(Response(BadRequest, FailureResult(NoEventLabelSpecified)), [])
    ensures d.Emit? ==> r.trace == [EmitCall(d.call)]
    ensures d.Emit? ==> (r.response.status == OK <==> outcome.Ok?)
    ensures d.Emit? && outcome.Ok? ==> r.response.body == Success(outcome.value)
    ensures d.Emit? && outcome.Err? ==> r.response == Response(NotAllowed, Failure(outcome.error))
  {
    match d
    case RejectNoLabel =>
      Outcome(Response(BadRequest, FailureResult(NoEventLabelSpecified)), [])
    case Emit(call) =>
      match outcome
      case Ok(v) => Outcome(Response(OK, Success(v)), [EmitCall(call)])
      case Err(e) => Outcome(Response(NotAllowed, Failure(e)), [EmitCall(call)])
  }

  /** `POST /event`, given what the device answers to the emit (if one is made). */
  function HandleEvent(ev: Event, outcome: Result<Value, Value>): (r: Outcome)
    // validation happens before any device call
    ensures r.trace == [] <==> Nullish(ev.eventLabel)
    ensures Nullish(ev.eventLabel) ==> r.response == Response(BadRequest, FailureResult(NoEventLabelSpecified))
    // otherwise exactly one emit, with the destination passed through
    ensures !Nullish(ev.eventLabel) ==>
              |r.trace| == 1 && r.trace[0].EmitCall? && r.trace[0].call.destination == ev.destination
    ensures r.response.status in {OK, BadRequest, NotAllowed}
    ensures r.response.status == NotAllowed <==> !Nullish(ev.eventLabel) && outcome.Err?
    // the emit is the one the body selects, and its answer is passed back unchanged
    ensures !Nullish(ev.eventLabel) ==> r.trace == [EmitCall(DecideEvent(ev).call)]
    ensures !Nullish(ev.eventLabel) && outcome.Ok? ==> r.response == Response(OK, Success(outcome.value))
    ensures !Nullish(ev.eventLabel) && outcome.Err? ==> r.response == Response(NotAllowed, Failure(outcome.error))
  {
    Respond(DecideEvent(ev), outcome)
  }

  /** Quirks of the presence tests: `0` and `""` are values, a type with other casing or
      no type at all drops the value, and a present value with no label is still refused. */
  lemma PresenceQuirks(l: Value, dest: Value)
    requires !Nullish(l)
    ensures DecideEvent(Event(l, Num(0.0), Str("percentage"), dest)) == Emit(EmitPercentage(l, Num(0.0), dest))
    ensures DecideEvent(Event(l, Str(""), Str("color"), dest)) == Emit(EmitColor(l, Str(""), dest))
    ensures DecideEvent(Event(l, Num(5.0), Str("Percentage"), dest)) == Emit(EmitEvent(l, dest))
    ensures DecideEvent(Event(l, Num(5.0), Undefined, dest)) == Emit(EmitEvent(l, dest))
    ensures DecideEvent(Event(l, Null, Str("timestamp"), dest)) == Emit(EmitEvent(l, dest))
    ensures DecideEvent(Event(Null, Num(5.0), Str("percentage"), dest)) == RejectNoLabel
  {
  }
}

=== FILE: firmware.dfy ===
/** `POST /upload-fw` (src/server.ts lines 263-283): read the firmware image and hand it
    to the device, under the `fwUploading` flag. The image file's contents (or the error
    reading it throws) and the device's answer are inputs. */
module Firmware {
  import opened Wrappers
  import opened Js
  import opened Device
  import opened Http
  import Guard

  const FirmwarePath: string := "/home/pi/spectoda/fw.enc"

  /** The busy error, spelled as the handler spells it. */
  const AlreadingUploadingFW: string := "AlreadingUploadingFW"

  const BusyResponse: Response := Response(NotAllowed, Failure(Str(AlreadingUploadingFW)))

  /** The `try` block: read the image, then pass its bytes unchanged to the device. */
  function Upload(image: Result<seq<bv8>, Value>, update: Result<Value, Value>): (r: Outcome)
    ensures |r.trace| >= 1 && r.trace[0] == ReadFile(FirmwarePath)
    // the device is asked to update exactly when the image could be read, with its bytes
    ensures image.Ok? ==> r.trace == [ReadFile(FirmwarePath), UpdateFirmware(image.value)]
    ensures image.Err? ==> r.trace == [ReadFile(FirmwarePath)]
    // success is the device's own result; any error, from either step, is a 405
    ensures r.response.status == OK <==> image.Ok? && update.Ok?
    ensures r.response.status == OK ==> r.response.body == Success(update.value)
    ensures image.Err? ==> r.response == Response(NotAllowed, Failure(image.error))
    ensures image.Ok? && update.Err? ==> r.response == Response(NotAllowed, Failure(update.error))
  {
    match image
    case Err(e) => Outcome(Response(NotAllowed, Failure(e)), [ReadFile(FirmwarePath)])
    case Ok(bytes) =>
      var trace := [ReadFile(FirmwarePath), UpdateFirmware(bytes)];
      match update
      case Ok(v) => Outcome(Response(OK, Success(v)), trace)
      case Err(e) => Outcome(Response(NotAllowed, Failure(e)), trace)
  }

  /** `POST /upload-fw`: the Begin step, the `try`/`catch`, and the End step (`finally`). */
  function Handle(uploading: bool, image: Result<seq<bv8>, Value>, update: Result<Value, Value>): (r: Guarded)
    // busy: rejected with no device call and the flag untouched
    ensures uploading ==> r == Guarded(Outcome(BusyResponse, []), true)
    // otherwise the flag is cleared on every exit path, success or error
    ensures !uploading ==> !r.held && r.outcome == Upload(image, update)
    ensures r.outcome.response.status in {OK, NotAllowed}
  {
    var (a, held) := Guard.TryAcquire(uploading);
    if a == Guard.Busy then Guarded(Outcome(BusyResponse, []), held)
    else Guarded(Upload(image, update), false)
  }

  /** Two uploads in a row: while the first holds the flag the second is turned away;
      once the first has finished, whatever its result, the next one is admitted. */
  lemma UploadsSerialize(image: Result<seq<bv8>, Value>, update: Result<Value, Value>,
                         image': Result<seq<bv8>, Value>, update': Result<Value, Value>)
    ensures var (a, held) := Guard.TryAcquire(false);
      && a == Guard.Acquired
      && Handle(held, image', update').outcome == Outcome(BusyResponse, [])
    ensures var first := Handle(false, image, update);
      Handle(first.held, image', update').outcome == Upload(image', update')
  {
  }
}

=== FILE: guard.dfy ===
/** The busy-flag discipline shared by `/connect` (`connecting`, src/server.ts line 14)
    and `/upload-fw` (`fwUploading`, line 15). A handler checks the flag and sets it with
    no `await` in between (its Begin step), and clears it in a `finally` (its End step).
    Between those steps other requests may run; this module shows that at most one
    request is ever between its Begin and its End. */
module Guard {

  datatype Acquire = Acquired | Busy

  /** The Begin step: read the flag and, if it was clear, set it. Returns the answer and
      the flag afterwards. */
  function TryAcquire(held: bool): (r: (Acquire, bool))
    ensures r.0 == Acquired <==> !held
    ensures r.1
  {
    if held then (Busy, true) else (Acquired, true)
  }

  /** One scheduling step of the single-threaded event loop: request `id` runs its
      Begin step, or runs its End step. */
  datatype Step = Begin(id: nat) | End(id: nat)

  /** The flag, the requests between Begin and End, and the requests turned away. */
  datatype World = World(held: bool, running: set<nat>, rejected: seq<nat>)

  const Init: World := World(false, {}, [])

  /** A request begins at most once at a time, and only a running request ends: a
      rejected request returns before reaching the `try`, so it has no `finally`. */
  predicate Enabled(w: World, s: Step)
  {
    match s
    case Begin(id) => id !in w.running
    case End(id) => id in w.running
  }

  function Next(w: World, s: Step): World
    requires Enabled(w, s)
  {
    match s
    case Begin(id) =>
      var (a, held) := TryAcquire(w.held);
      if a == Acquired then World(held, w.running + {id}, w.rejected)
      else World(held, w.running, w.rejected + [id])
    case End(id) =>
      World(false, w.running - {id}, w.rejected)
  }

  /** The mutual-exclusion invariant: at most one request runs, and the flag is set
      exactly when one does. */
  predicate Exclusive(w: World)
  {
    |w.running| <= 1 && (w.held <==> w.running != {})
  }

  lemma SingletonMinus(s: set<nat>, x: nat)
    requires |s| <= 1 && x in s
    ensures s - {x} == {}
  {
    assert s == (s - {x}) + {x};
    assert |s - {x}| == 0;
  }

  /** What one step does: a Begin admits exactly when the flag was clear, and leaves
      the flag set; an End clears the flag and retires its request; no other request
      changes state. */
  lemma StepEffects(w: World, s: Step)
    requires Enabled(w, s)
    ensures var r := Next(w, s);
      && (s.Begin? ==> r.held && (s.id in r.running <==> !w.held))
      && (s.Begin? ==> (r.rejected == w.rejected + [s.id] <==> w.held))
      && (s.End? ==> !r.held && s.id !in r.running && r.rejected == w.rejected)
      && (forall id :: id != s.id ==> (id in r.running <==> id in w.running))
  {
  }

  lemma NextKeepsExclusive(w: World, s: Step)
    requires Exclusive(w) && Enabled(w, s)
    ensures Exclusive(Next(w, s))
  {
    match s
    case Begin(id) =>
      if !w.held {
        assert w.running + {id} == {id};
      }
    case End(id) =>
      SingletonMinus(w.running, id);
  }

  /** Every step of the schedule is enabled when it is taken. */
  predicate Schedule(w: World, steps: seq<Step>)
    decreases |steps|
  {
    |steps| == 0 || (Enabled(w, steps[0]) && Schedule(Next(w, steps[0]), steps[1..]))
  }

  function Run(w: World, steps: seq<Step>): World
    requires Schedule(w, steps)
    decreases |steps|
  {
    if |steps| == 0 then w else Run(Next(w, steps[0]), steps[1..])
  }

  lemma {:induction false} RunKeepsExclusive(w: World, steps: seq<Step>)
    requires Exclusive(w) && Schedule(w, steps)
    ensures Exclusive(Run(w, steps))
    decreases |steps|
  {
    if |steps| > 0 {
      NextKeepsExclusive(w, steps[0]);
      RunKeepsExclusive(Next(w, steps[0]), steps[1..]);
    }
  }

  /** Mutual exclusion: however Begin and End steps interleave, starting with the flag
      clear, at most one request is between its Begin and its End, and the flag is set
      exactly while one is. */
  lemma MutualExclusion(steps: seq<Step>)
    requires Schedule(Init, steps)
    ensures |Run(Init, steps).running| <= 1
    ensures Run(Init, steps).held <==> Run(Init, steps).running != {}
  {
    RunKeepsExclusive(Init, steps);
  }

  /** Begin steps of fresh requests. */
  function Begins(ids: seq<nat>): (steps: seq<Step>)
    ensures |steps| == |ids|
    ensures forall i :: 0 <= i < |ids| ==> steps[i] == Begin(ids[i])
  {
    if |ids| == 0 then [] else [Begin(ids[0])] + Begins(ids[1..])
  }

  /** While the flag is held, every arriving request is turned away, in arrival order,
      and nothing else changes: there is no queue. */
  lemma {:induction false} BusyRejectsAll(w: World, ids: seq<nat>)
    requires w.held
    requires forall i :: 0 <= i < |ids| ==> ids[i] !in w.running
    ensures Schedule(w, Begins(ids))
    ensures Run(w, Begins(ids)) == World(true, w.running, w.rejected + ids)
    decreases |ids|
  {
    if |ids| > 0 {
      var steps := Begins(ids);
      assert steps[1..] == Begins(ids[1..]);
      var w' := Next(w, Begin(ids[0]));
      assert w' == World(true, w.running, w.rejected + [ids[0]]);
      BusyRejectsAll(w', ids[1..]);
      assert w.rejected + [ids[0]] + ids[1..] == w.rejected + ids;
    }
  }

  /** Of several requests arriving while none is running, the first is admitted and
      every later one is turned away. */
  lemma FirstOfConcurrentWins(w: World, ids: seq<nat>)
    requires Exclusive(w) && !w.held && |ids| >= 1
    requires forall i, j :: 0 <= i < j < |ids| ==> ids[i] != ids[j]
    ensures Schedule(w, Begins(ids))
    ensures Run(w, Begins(ids)).running == {ids[0]}
    ensures Run(w, Begins(ids)).rejected == w.rejected + ids[1..]
  {
    var steps := Begins(ids);
    var w' := Next(w, Begin(ids[0]));
    assert w.running == {};
    assert w' == World(true, {ids[0]}, w.rejected);
    assert steps[1..] == Begins(ids[1..]);
    BusyRejectsAll(w', ids[1..]);
  }

  /** Once the running request has ended, the next request is admitted. */
  lemma ReleaseReadmits(w: World, first: nat, next: nat)
    requires Exclusive(w) && first in w.running && next != first
    ensures Enabled(w, End(first))
    ensures Enabled(Next(w, End(first)), Begin(next))
    ensures Next(Next(w, End(first)), Begin(next)).running == {next}
  {
    SingletonMinus(w.running, first);
  }
}

=== FILE: http.dfy ===
/** The response envelopes the handlers produce. */
module Http {
  import opened Js
  import opened Device

  /** A successful entry of a batch variable read: `{ name, segId, value }`. */
  datatype VarRead = VarRead(name: Value, segId: Value, value: Value)

  /** A failed entry of a batch variable read: `{ name, segId, error }`. */
  datatype VarFail = VarFail(name: Value, segId: Value, error: Value)

  /** The JSON body of a response. */
  datatype Body =
    | Success(result: Value)                         // { status: "success", result }
    | Failure(error: Value)                          // { status: "error", error }
    | FailureResult(reason: string)                  // { status: "error", result: reason }
    | ValueOf(value: Value)                          // { value }
    | ErrorText(text: string)                        // { error: text }
    | Batch(data: seq<VarRead>, fails: seq<VarFail>) // { data, fails }

  datatype Response = Response(status: nat, body: Body)

  /** What one request produces: the response sent and the effects performed. */
  datatype Outcome = Outcome(response: Response, trace: seq<Effect>)

  /** The outcome of a handler guarded by a process-wide flag, with the flag afterwards. */
  datatype Guarded = Guarded(outcome: Outcome, held: bool)

  const OK: nat := 200
  const BadRequest: nat := 400
  const NotFound: nat := 404
  const NotAllowed: nat := 405
  const ServerError: nat := 500
}

=== FILE: js.dfy ===
/** The JavaScript values the request handlers inspect, after JSON body parsing. */
module Js {

  /** A JavaScript value. Arrays, plain objects and thrown `Error` instances are all
      `Object`: the handlers only ever test them for truthiness or pass them on.
      `Num` has no NaN and no infinity. */
  datatype Value =
    | Undefined
    | Null
    | Bool(b: bool)
    | Num(n: real)
    | Str(s: string)
    | Object

  /** JavaScript truthiness: `false`, `0`, `""`, `null` and `undefined` are falsy. */
  predicate Truthy(v: Value)
  {
    match v
    case Undefined => false
    case Null => false
    case Bool(b) => b
    case Num(n) => n != 0.0
    case Str(s) => s != ""
    case Object => true
  }

  /** `v === undefined || v === null`, the test the handlers use for "absent". */
  predicate Nullish(v: Value)
  {
    v.Undefined? || v.Null?
  }

  /** Absence is strictly weaker than falsiness: `0` and `""` are present but falsy. */
  lemma NullishIsFalsy(v: Value)
    ensures Nullish(v) ==> !Truthy(v)
    ensures !Truthy(Num(0.0)) && !Nullish(Num(0.0))
    ensures !Truthy(Str("")) && !Nullish(Str(""))
  {
  }
}

=== FILE: notifier.dfy ===
/** `POST /notifier`: a textual form of an event, `key=value` tokens separated by
    single spaces, parsed into a map and dispatched like `/event` (src/server.ts
    lines 207-261). */
module Notifier {
  import opened Wrappers
  import opened Js
  import opened Device
  import opened Http
  import opened Text
  import opened EventDispatch

  const Space: char := ' '
  const Equals: char := '='

  /** What one space-separated token adds to the map: the token is split on `=`, only
      the first two pieces are used, and the token counts when both are non-empty. */
  function Entry(token: string): (r: Option<(string, string)>)
    ensures r.Some? ==> r.value.0 != "" && NoUpper(r.value.0)
    ensures r.Some? ==> r.value.1 != "" && Equals !in r.value.1
  {
    var pieces := Split(token, Equals);
    if |pieces| >= 2 && pieces[0] != "" && pieces[1] != "" then
      LowerProperties(pieces[0]);
      Some((Lower(pieces[0]), pieces[1]))
    else None
  }

  /** `token` is `k=v` followed by nothing or by a further `=...` that the parser ignores. */
  predicate IsPair(token: string, k: string, v: string, tail: string)
  {
    && token == k + [Equals] + v + tail
    && k != "" && Equals !in k
    && v != "" && Equals !in v
    && (tail == "" || tail[0] == Equals)
  }

  /** A token contributes `(key, value)` exactly when it is `k=v` or `k=v=...` with
      non-empty `k` and `v`, `key` being `k` lower-cased and `value` being `v` verbatim. */
  lemma EntryCharacterization(token: string, key: string, value: string)
    ensures Entry(token) == Some((key, value)) <==>
              exists k, tail :: IsPair(token, k, value, tail) && key == Lower(k)
  {
    if Entry(token) == Some((key, value)) {
      var pieces := Split(token, Equals);
      JoinSplit(token, Equals);
      var tail := if |pieces| == 2 then "" else [Equals] + Join(pieces[2..], Equals);
      assert Join(pieces[1..], Equals) == pieces[1] + tail;
      assert token == pieces[0] + [Equals] + Join(pieces[1..], Equals);
      assert IsPair(token, pieces[0], value, tail);
    }
    if exists k, tail :: IsPair(token, k, value, tail) && key == Lower(k) {
      var k, tail :| IsPair(token, k, value, tail) && key == Lower(k);
      PairEntry(k, value, tail);
    }
  }

  lemma PairEntry(k: string, v: string, tail: string)
    requires IsPair(k + [Equals] + v + tail, k, v, tail)
    ensures Entry(k + [Equals] + v + tail) == Some((Lower(k), v))
  {
    var token := k + [Equals] + v + tail;
    assert token == k + [Equals] + (v + tail);
    SplitFirstPiece(k, Equals, v + tail);
    SecondPiece(v, tail);
  }

  /** What follows the first `=` of a pair splits into the value first. */
  lemma SecondPiece(v: string, tail: string)
    requires v != "" && Equals !in v && (tail == "" || tail[0] == Equals)
    ensures |Split(v + tail, Equals)| >= 1 && Split(v + tail, Equals)[0] == v
  {
    if tail == "" {
      assert v + tail == v;
      SplitNoSeparator(v, Equals);
    } else {
      assert v + tail == v + [Equals] + tail[1..];
      SplitFirstPiece(v, Equals, tail[1..]);
    }
  }

  /** The tokens that add nothing: no `=` at all (including the empty token that a
      double space produces), an empty key, an empty value. */
  lemma EntryRejects(k: string, t: string)
    requires Equals !in k
    ensures Entry(k) == None
    ensures Entry([Equals] + t) == None
    ensures Entry(k + [Equals]) == None
    ensures Entry(k + [Equals, Equals] + t) == None
  {
    SplitNoSeparator(k, Equals);
    assert [Equals] + t == [] + [Equals] + t;
    SplitFirstPiece([], Equals, t);
    assert k + [Equals] == k + [Equals] + [];
    SplitFirstPiece(k, Equals, []);
    assert k + [Equals, Equals] + t == k + [Equals] + ([Equals] + t);
    SplitFirstPiece(k, Equals, [Equals] + t);
    assert [Equals] + t == [] + [Equals] + t;
    SplitFirstPiece([], Equals, t);
  }

  /** Fold the tokens into the map in order, a later key overwriting an earlier one. */
  function ParseTokens(tokens: seq<string>): (m: map<string, string>)
    ensures forall key :: key in m ==> key != "" && NoUpper(key)
    ensures forall key :: key in m ==> m[key] != "" && Equals !in m[key]
    decreases |tokens|
  {
    if |tokens| == 0 then map[]
    else
      var m := ParseTokens(tokens[..|tokens| - 1]);
      match Entry(tokens[|tokens| - 1])
      case None => m
      case Some((key, value)) => m[key := value]
  }

  /** `message.split(" ")` folded into the map. */
  function ParseMessage(message: string): (m: map<string, string>)
    ensures forall key :: key in m ==> key != "" && NoUpper(key)
    ensures forall key :: key in m ==> m[key] != "" && Equals !in m[key]
  {
    ParseTokens(Split(message, Space))
  }

  /** A message with no space is a single token. */
  lemma SingleToken(message: string)
    requires Space !in message
    ensures ParseMessage(message) == ParseTokens([message])
  {
    SplitNoSeparator(message, Space);
  }

  predicate Defines(token: string, key: string)
  {
    Entry(token).Some? && Entry(token).value.0 == key
  }

  /** A key is in the map exactly when some token defines it, and its value is the one
      given by the last token that defines it. */
  lemma {:induction false} ParseTokensSpec(tokens: seq<string>, key: string)
    ensures key in ParseTokens(tokens) <==> exists i :: 0 <= i < |tokens| && Defines(tokens[i], key)
    ensures key in ParseTokens(tokens) ==>
              exists i :: 0 <= i < |tokens| && Entry(tokens[i]) == Some((key, ParseTokens(tokens)[key]))
                && forall j :: i < j < |tokens| ==> !Defines(tokens[j], key)
    decreases |tokens|
  {
    if |tokens| > 0 {
      var n := |tokens| - 1;
      var init := tokens[..n];
      ParseTokensSpec(init, key);
      assert forall i :: 0 <= i < n ==> init[i] == tokens[i];
      var m := ParseTokens(tokens);
      var last := tokens[n];
      if Defines(last, key) {
        assert Entry(last) == Some((key, m[key]));
      } else {
        assert key in m <==> key in ParseTokens(init);
        if key in m {
          assert m[key] == ParseTokens(init)[key];
          var i :| 0 <= i < n && Entry(init[i]) == Some((key, m[key]))
                   && forall j :: i < j < n ==> !Defines(init[j], key);
          assert Entry(tokens[i]) == Some((key, m[key]));
          assert forall j :: i < j < |tokens| ==> !Defines(tokens[j], key);
        }
      }
    }
  }

  /** The value of `parsed[key] ?? undefined`. */
  function Lookup(parsed: map<string, string>, key: string): Value
  {
    if key in parsed then Str(parsed[key]) else Undefined
  }

  /** The event the parsed map stands for: no destination is ever taken from the text. */
  function AsEvent(parsed: map<string, string>): Event
  {
    Event(Lookup(parsed, "label"), Lookup(parsed, "value"), Lookup(parsed, "type"), Undefined)
  }

  /** Which call `/notifier` makes for a parsed map. `toNumber` stands for JavaScript's
      `Number()` coercion, which the model does not interpret. */
  function DecideNotifier(parsed: map<string, string>, toNumber: string -> Value): (d: Decision)
    ensures d.RejectNoLabel? <==> "label" !in parsed
    ensures d.Emit? ==> d.call.eventLabel == Str(parsed["label"]) && d.call.destination == Undefined
    ensures d.Emit? ==> (d.call.EmitEvent? <==>
              "value" !in parsed || "type" !in parsed || parsed["type"] !in {"percentage", "color", "timestamp"})
    // each type string selects its own emit, and only with a value present
    ensures (d.Emit? && d.call.EmitPercentage?) <==>
              "label" in parsed && "value" in parsed && Lookup(parsed, "type") == Str("percentage")
    ensures (d.Emit? && d.call.EmitColor?) <==>
              "label" in parsed && "value" in parsed && Lookup(parsed, "type") == Str("color")
    ensures (d.Emit? && d.call.EmitTimestamp?) <==>
              "label" in parsed && "value" in parsed && Lookup(parsed, "type") == Str("timestamp")
    ensures d.Emit? && d.call.EmitPercentage? ==> d.call.value == toNumber(parsed["value"])
    ensures d.Emit? && d.call.EmitTimestamp? ==> d.call.value == toNumber(parsed["value"])
    ensures d.Emit? && d.call.EmitColor? ==> d.call.value == Str(parsed["value"])
  {
    if "label" !in parsed then RejectNoLabel
    else
      var l := Str(parsed["label"]);
      if "value" !in parsed then Emit(EmitEvent(l, Undefined))
      else
        var v := parsed["value"];
        var t := Lookup(parsed, "type");
        if t == Str("percentage") then Emit(EmitPercentage(l, toNumber(v), Undefined))
        else if t == Str("color") then Emit(EmitColor(l, Str(v), Undefined))
        else if t == Str("timestamp") then Emit(EmitTimestamp(l, toNumber(v), Undefined))
        else Emit(EmitEvent(l, Undefined))
  }

  /** Apply `Number()` where the notifier applies it: to the value of a percentage or
      timestamp emit. */
  function Coerce(d: Decision, toNumber: string -> Value): Decision
  {
    match d
    case Emit(EmitPercentage(l, Str(v), dest)) => Emit(EmitPercentage(l, toNumber(v), dest))
    case Emit(EmitTimestamp(l, Str(v), dest)) => Emit(EmitTimestamp(l, toNumber(v), dest))
    case _ => d
  }

  /** The notifier is the `/event` dispatch applied to the event its map stands for,
      except that percentage and timestamp values go through `Number()`. */
  lemma NotifierIsEventDispatch(parsed: map<string, string>, toNumber: string -> Value)
    ensures DecideNotifier(parsed, toNumber) == Coerce(DecideEvent(AsEvent(parsed)), toNumber)
  {
  }

  /** `POST /notifier`. A `message` that is not a string has no `split`: the TypeError
      thrown inside the `try` is answered with 405. */
  function HandleNotifier(message: Value, toNumber: string -> Value, outcome: Result<Value, Value>): (r: Outcome)
    ensures !message.Str? ==> r.response.status == NotAllowed && r.trace == []
    ensures message.Str? ==>
              ((r.response == Response(BadRequest, FailureResult(NoEventLabelSpecified))) <==>
               "label" !in ParseMessage(message.s))
    ensures r.trace == [] || (|r.trace| == 1 && r.trace[0].EmitCall? && r.trace[0].call.destination == Undefined)
    ensures r.response.status in {OK, BadRequest, NotAllowed}
    ensures r.response.status == OK ==> message.Str? && "label" in ParseMessage(message.s) && outcome.Ok?
    // a labelled message makes exactly the emit its map selects, and answers with its outcome
    ensures message.Str? && "label" in ParseMessage(message.s) ==>
              && r.trace == [EmitCall(DecideNotifier(ParseMessage(message.s), toNumber).call)]
              && (r.response.status == OK <==> outcome.Ok?)
              && (outcome.Ok? ==> r.response.body == Success(outcome.value))
              && (outcome.Err? ==> r.response == Response(NotAllowed, Failure(outcome.error)))
  {
    match message
    case Str(s) => Respond(DecideNotifier(ParseMessage(s), toNumber), outcome)
    case _ => Outcome(Response(NotAllowed, Failure(Object)), [])
  }
}

=== FILE: notifier_examples.dfy ===
/** A worked notifier message showing the parser's quirks end to end: the key is
    lower-cased and the value kept as written, only the first two `=`-pieces count,
    and the empty token from a double space and a token with an empty key add nothing. */
module NotifierExamples {
  import opened Wrappers
  import opened Js
  import opened Device
  import opened Text
  import opened EventDispatch
  import opened Notifier

  const Example: string := "Label=On value=5=9  =x"

  /** Adding a token to the end of the list adds its entry, if any, over the map so far. */
  lemma ParseTokensSnoc(tokens: seq<string>, t: string)
    ensures ParseTokens(tokens + [t]) ==
              match Entry(t)
              case None => ParseTokens(tokens)
              case Some((k, v)) => ParseTokens(tokens)[k := v]
  {
    assert (tokens + [t])[..|tokens|] == tokens;
  }

  lemma ExampleTokens()
    ensures Split(Example, Space) == ["Label=On", "value=5=9", "", "=x"]
  {
    var t0, t1, t2, t3 := "Label=On", "value=5=9", "", "=x";
    var tokens := [t0, t1, t2, t3];
    assert Join([t3], Space) == t3;
    assert [t2, t3][1..] == [t3];
    assert Join([t2, t3], Space) == t2 + [Space] + t3;
    assert [t1, t2, t3][1..] == [t2, t3];
    assert Join([t1, t2, t3], Space) == t1 + [Space] + t2 + [Space] + t3;
    assert tokens[1..] == [t1, t2, t3];
    assert Join(tokens, Space) == t0 + [Space] + t1 + [Space] + t2 + [Space] + t3;
    assert t0 + [Space] + t1 + [Space] + t2 + [Space] + t3 == Example;
    SplitJoin(tokens, Space);
  }

  lemma ExampleEntries()
    ensures Entry("Label=On") == Some(("label", "On"))
    ensures Entry("value=5=9") == Some(("value", "5"))
    ensures Entry("") == None
    ensures Entry("=x") == None
  {
    LabelEntry();
    ValueEntry();
    EntryRejects("", "x");
    assert "=x" == [Equals] + "x";
  }

  lemma LabelEntry()
    ensures Entry("Label=On") == Some(("label", "On"))
  {
    assert "Label=On" == "Label" + [Equals] + "On" + "";
    PairEntry("Label", "On", "");
    assert Lower("Label") == "label";
  }

  lemma ValueEntry()
    ensures Entry("value=5=9") == Some(("value", "5"))
  {
    assert "value=5=9" == "value" + [Equals] + "5" + "=9";
    PairEntry("value", "5", "=9");
    assert Lower("value") == "value";
  }

  lemma FoldExample(t0: string, t1: string, t2: string, t3: string)
    requires Entry(t0) == Some(("label", "On")) && Entry(t1) == Some(("value", "5"))
    requires Entry(t2) == None && Entry(t3) == None
    ensures ParseTokens([t0, t1, t2, t3]) == map["label" := "On", "value" := "5"]
  {
    ParseTokensSnoc([], t0);
    assert [] + [t0] == [t0];
    ParseTokensSnoc([t0], t1);
    assert [t0] + [t1] == [t0, t1];
    ParseTokensSnoc([t0, t1], t2);
    assert [t0, t1] + [t2] == [t0, t1, t2];
    ParseTokensSnoc([t0, t1, t2], t3);
    assert [t0, t1, t2] + [t3] == [t0, t1, t2, t3];
  }

  /** The example parses to `{ label: "On", value: "5" }`; having no `type`, it is
      dispatched as a trigger-only emit and its value is dropped. */
  lemma ParseExample(toNumber: string -> Value)
    ensures ParseMessage(Example) == map["label" := "On", "value" := "5"]
    ensures DecideNotifier(ParseMessage(Example), toNumber) == Emit(EmitEvent(Str("On"), Undefined))
  {
    ExampleMap();
    var m := map["label" := "On", "value" := "5"];
    assert "label" in m && m["label"] == "On" && "type" !in m;
    UntypedIsTrigger(m, toNumber);
  }

  lemma ExampleMap()
    ensures ParseMessage(Example) == map["label" := "On", "value" := "5"]
  {
    ExampleTokens();
    ExampleEntries();
    FoldExample("Label=On", "value=5=9", "", "=x");
  }

  /** A labelled map with no `type` always gives a trigger-only emit. */
  lemma UntypedIsTrigger(parsed: map<string, string>, toNumber: string -> Value)
    requires "label" in parsed && "type" !in parsed
    ensures DecideNotifier(parsed, toNumber) == Emit(EmitEvent(Str(parsed["label"]), Undefined))
  {
  }
}

=== FILE: text.dfy ===
/** The two string operations the notifier parser relies on: JavaScript's
    `String.prototype.split` with a one-character separator, and `toLowerCase`
    restricted to ASCII letters. */
module Text {

  /** `s.split(sep)`: the maximal separator-free pieces between separators, so a
      string with n separators has n + 1 pieces, some of them possibly empty
      (`"".split(" ")` is `[""]`, `"a  b".split(" ")` is `["a", "", "b"]`). */
  function Split(s: string, sep: char): (r: seq<string>)
    ensures |r| >= 1
    ensures forall i :: 0 <= i < |r| ==> sep !in r[i]
    decreases |s|
  {
    if |s| == 0 then [""]
    else
      var rest := Split(s[1..], sep);
      if s[0] == sep then [""] + rest
      else [[s[0]] + rest[0]] + rest[1..]
  }

  /** `parts.join(sep)`. */
  function Join(parts: seq<string>, sep: char): string
    requires |parts| >= 1
    decreases |parts|
  {
    if |parts| == 1 then parts[0] else parts[0] + [sep] + Join(parts[1..], sep)
  }

  /** Splitting loses nothing: joining the pieces back gives the original string. */
  lemma {:induction false} JoinSplit(s: string, sep: char)
    ensures Join(Split(s, sep), sep) == s
    decreases |s|
  {
    if |s| > 0 {
      var rest := Split(s[1..], sep);
      JoinSplit(s[1..], sep);
      if s[0] == sep {
        assert Split(s, sep) == [""] + rest;
        assert ([""] + rest)[1..] == rest;
      } else {
        var r := [[s[0]] + rest[0]] + rest[1..];
        assert Split(s, sep) == r;
        if |rest| == 1 {
          assert s == [s[0]] + s[1..];
        } else {
          assert r[1..] == rest[1..];
          assert Join(rest, sep) == rest[0] + [sep] + Join(rest[1..], sep);
          assert s == [s[0]] + s[1..];
        }
      }
    }
  }

  /** A separator-free string is a single piece. */
  lemma {:induction false} SplitNoSeparator(a: string, sep: char)
    requires sep !in a
    ensures Split(a, sep) == [a]
    decreases |a|
  {
    if |a| > 0 {
      SplitNoSeparator(a[1..], sep);
      assert [a[0]] + a[1..] == a;
    }
  }

  /** A separator-free prefix followed by a separator is the first piece. */
  lemma {:induction false} SplitFirstPiece(a: string, sep: char, b: string)
    requires sep !in a
    ensures Split(a + [sep] + b, sep) == [a] + Split(b, sep)
    decreases |a|
  {
    var s := a + [sep] + b;
    if |a| == 0 {
      assert s[0] == sep && s[1..] == b;
    } else {
      assert s[0] == a[0] && s[1..] == a[1..] + [sep] + b;
      SplitFirstPiece(a[1..], sep, b);
      assert [a[0]] + a[1..] == a;
    }
  }

  /** Joining separator-free pieces and splitting again gives the same pieces. */
  lemma {:induction false} SplitJoin(parts: seq<string>, sep: char)
    requires |parts| >= 1
    requires forall i :: 0 <= i < |parts| ==> sep !in parts[i]
    ensures Split(Join(parts, sep), sep) == parts
    decreases |parts|
  {
    if |parts| == 1 {
      SplitNoSeparator(parts[0], sep);
    } else {
      SplitJoin(parts[1..], sep);
      SplitFirstPiece(parts[0], sep, Join(parts[1..], sep));
      assert [parts[0]] + parts[1..] == parts;
    }
  }

  predicate IsUpper(c: char)
  {
    'A' <= c <= 'Z'
  }

  /** ASCII `toLowerCase` of one character. */
  function LowerChar(c: char): (d: char)
    ensures !IsUpper(d)
    ensures IsUpper(c) ==> d as int == c as int + 32
    ensures !IsUpper(c) ==> d == c
  {
    if IsUpper(c) then (c as int + 32) as char else c
  }

  /** ASCII `s.toLowerCase()`. */
  function Lower(s: string): (r: string)
    ensures |r| == |s|
    ensures forall i :: 0 <= i < |s| ==> r[i] == LowerChar(s[i])
    decreases |s|
  {
    if |s| == 0 then "" else [LowerChar(s[0])] + Lower(s[1..])
  }

  predicate NoUpper(s: string)
  {
    forall i :: 0 <= i < |s| ==> !IsUpper(s[i])
  }

  /** Lower-casing leaves no upper-case letter, changes nothing else than upper-case
      letters, and is the identity exactly on strings that have none. */
  lemma LowerProperties(s: string)
    ensures NoUpper(Lower(s))
    ensures Lower(Lower(s)) == Lower(s)
    ensures Lower(s) == s <==> NoUpper(s)
  {
    if NoUpper(s) {
      assert forall i :: 0 <= i < |s| ==> Lower(s)[i] == s[i];
    }
    if Lower(s) == s {
      assert forall i :: 0 <= i < |s| ==> !IsUpper(Lower(s)[i]);
    }
  }
}

=== FILE: variables.dfy ===
/** `GET /variable` and `POST /variables` (src/server.ts lines 307-352): read controller
    variables by name and segment id. Each read's answer is an input. */
module Variables {
  import opened Wrappers
  import opened Js
  import opened Device
  import opened Http

  const MissingQuery: string := "Both 'name' and 'seg_id' parameters are required"
  const MissingField: string := "Both 'name' and 'segId' parameters are required"
  const NotFoundText: string := "Variable or segment not found"
  const SomethingWentWrong: string := "Something went wrong"

  /** `GET /variable?name&seg_id`: both parameters must be truthy; a failed read is 404. */
  function ReadOne(name: Value, segId: Value, outcome: Result<Value, Value>): (r: Outcome)
    // validation happens before any device call
    ensures r.trace == [] <==> !Truthy(name) || !Truthy(segId)
    ensures r.trace == [] ==> r.response == Response(BadRequest, ErrorText(MissingQuery))
    ensures r.trace != [] ==> r.trace == [ReadVariable(name, segId)]
    // the read's value is returned as is; its error is replaced by a fixed message
    ensures r.trace != [] && outcome.Ok? ==> r.response == Response(OK, ValueOf(outcome.value))
    ensures r.trace != [] && outcome.Err? ==> r.response == Response(NotFound, ErrorText(NotFoundText))
  {
    if !Truthy(name) || !Truthy(segId) then Outcome(Response(BadRequest, ErrorText(MissingQuery)), [])
    else
      match outcome
      case Ok(v) => Outcome(Response(OK, ValueOf(v)), [ReadVariable(name, segId)])
      case Err(_) => Outcome(Response(NotFound, ErrorText(NotFoundText)), [ReadVariable(name, segId)])
  }

  /** An element of `variables`: an object destructured into `{ name, segId }`, or
      `null`/`undefined`, on which the destructuring throws. */
  datatype Item = Pair(name: Value, segId: Value) | NullItem

  /** The `variables` field: something `for ... of` can iterate, or not. */
  datatype Input = Items(items: seq<Item>) | NotIterable

  /** The loop's check `!name || !segId` passes for this item. */
  predicate Valid(item: Item)
  {
    item.Pair? && Truthy(item.name) && Truthy(item.segId)
  }

  predicate AllValid(items: seq<Item>)
  {
    forall j :: 0 <= j < |items| ==> Valid(items[j])
  }

  /** The index at which the loop stops early: the first item that is not a pair with
      a truthy name and a truthy segment id, or the length when there is none. */
  function FirstInvalid(items: seq<Item>): (k: nat)
    ensures k <= |items|
    ensures AllValid(items[..k])
    ensures k < |items| ==> !Valid(items[k])
    decreases |items|
  {
    if |items| == 0 then 0
    else if !Valid(items[0]) then 0
    else 1 + FirstInvalid(items[1..])
  }

  /** The loop stops at `k` exactly when the items before `k` pass and `items[k]` fails
      (or there is no `items[k]`). */
  lemma {:induction false} FirstInvalidAt(items: seq<Item>, k: nat)
    requires k <= |items| && AllValid(items[..k])
    requires k < |items| ==> !Valid(items[k])
    ensures FirstInvalid(items) == k
    decreases k
  {
    if k > 0 {
      assert items[..k][0] == items[0];
      assert items[1..][..k - 1] == items[..k][1..];
      FirstInvalidAt(items[1..], k - 1);
    }
  }

  /** The reads made for valid items, in order. */
  function Reads(items: seq<Item>): (t: seq<Effect>)
    requires AllValid(items)
    ensures |t| == |items|
    ensures forall j :: 0 <= j < |items| ==> t[j] == ReadVariable(items[j].name, items[j].segId)
  {
    if |items| == 0 then [] else [ReadVariable(items[0].name, items[0].segId)] + Reads(items[1..])
  }

  /** The successful reads, in input order. */
  function Successes(items: seq<Item>, outcomes: seq<Result<Value, Value>>): seq<VarRead>
    requires |outcomes| == |items|
    requires AllValid(items)
    decreases |items|
  {
    if |items| == 0 then []
    else
      var n := |items| - 1;
      Successes(items[..n], outcomes[..n])
      + (if outcomes[n].Ok? then [VarRead(items[n].name, items[n].segId, outcomes[n].value)] else [])
  }

  /** The failed reads, in input order. */
  function Failures(items: seq<Item>, outcomes: seq<Result<Value, Value>>): seq<VarFail>
    requires |outcomes| == |items|
    requires AllValid(items)
    decreases |items|
  {
    if |items| == 0 then []
    else
      var n := |items| - 1;
      Failures(items[..n], outcomes[..n])
      + (if outcomes[n].Err? then [VarFail(items[n].name, items[n].segId, outcomes[n].error)] else [])
  }

  /** Reading one more valid item extends the reads, and `data` or `fails`, by that item. */
  lemma Extend(items: seq<Item>, outcomes: seq<Result<Value, Value>>, k: nat)
    requires |outcomes| == |items| && k < |items|
    requires AllValid(items[..k]) && Valid(items[k])
    ensures AllValid(items[..k + 1])
    ensures Reads(items[..k + 1]) == Reads(items[..k]) + [ReadVariable(items[k].name, items[k].segId)]
    ensures Successes(items[..k + 1], outcomes[..k + 1]) == Successes(items[..k], outcomes[..k])
              + (if outcomes[k].Ok? then [VarRead(items[k].name, items[k].segId, outcomes[k].value)] else [])
    ensures Failures(items[..k + 1], outcomes[..k + 1]) == Failures(items[..k], outcomes[..k])
              + (if outcomes[k].Err? then [VarFail(items[k].name, items[k].segId, outcomes[k].error)] else [])
  {
    var p, q := items[..k + 1], outcomes[..k + 1];
    assert p[..k] == items[..k] && q[..k] == outcomes[..k];
    assert p[k] == items[k] && q[k] == outcomes[k];
    assert AllValid(p) by {
      assert forall j :: 0 <= j < k ==> p[j] == items[..k][j];
    }
    assert Reads(p) == Reads(p[..k]) + [ReadVariable(p[k].name, p[k].segId)] by {
      var a, b := Reads(p), Reads(p[..k]) + [ReadVariable(p[k].name, p[k].segId)];
      assert |a| == |b|;
      assert forall j :: 0 <= j < |a| ==> a[j] == b[j];
    }
  }

  /** The `for ... of` loop: read items in order until the first invalid one, recording
      each read's value or error and carrying on after a failed read. */
  method ReadUntilInvalid(items: seq<Item>, outcomes: seq<Result<Value, Value>>)
    returns (k: nat, trace: seq<Effect>, data: seq<VarRead>, fails: seq<VarFail>)
    requires |outcomes| == |items|
    ensures k == FirstInvalid(items)
    ensures trace == Reads(items[..k])
    ensures data == Successes(items[..k], outcomes[..k])
    ensures fails == Failures(items[..k], outcomes[..k])
  {
    data, fails, trace := [], [], [];
    k := 0;
    while k < |items| && Valid(items[k])
      invariant 0 <= k <= |items|
      invariant AllValid(items[..k])
      invariant trace == Reads(items[..k])
      invariant data == Successes(items[..k], outcomes[..k])
      invariant fails == Failures(items[..k], outcomes[..k])
    {
      var item := items[k];
      Extend(items, outcomes, k);
      trace := trace + [ReadVariable(item.name, item.segId)];
      match outcomes[k] {
        case Ok(v) =>
          data := data + [VarRead(item.name, item.segId, v)];
        case Err(e) =>
          fails := fails + [VarFail(item.name, item.segId, e)];
      }
      k := k + 1;
    }
    FirstInvalidAt(items, k);
  }

  /** `POST /variables`. `outcomes[i]` is what the read of `items[i]` answers, if it is
      made. An invalid item aborts the batch with no `data`/`fails` body, but the reads
      already made stay made; a failed read is recorded and the loop goes on. */
  method ReadBatch(input: Input, outcomes: seq<Result<Value, Value>>) returns (r: Outcome)
    requires input.Items? ==> |outcomes| == |input.items|
    ensures input.NotIterable? ==> r == Outcome(Response(ServerError, ErrorText(SomethingWentWrong)), [])
    // the first invalid item aborts the batch, after the reads of the items before it
    ensures input.Items? && FirstInvalid(input.items) < |input.items| ==>
              r.trace == Reads(input.items[..FirstInvalid(input.items)])
    ensures input.Items? && FirstInvalid(input.items) < |input.items| ==>
              r.response == (if input.items[FirstInvalid(input.items)].NullItem?
                             then Response(ServerError, ErrorText(SomethingWentWrong))
                             else Response(BadRequest, ErrorText(MissingField)))
    // otherwise every item is read, in order, and the answers are split into data and fails
    ensures input.Items? && FirstInvalid(input.items) == |input.items| ==>
              && r.trace == Reads(input.items)
              && r.response == Response(OK, Batch(Successes(input.items, outcomes), Failures(input.items, outcomes)))
  {
    if input.NotIterable? {
      return Outcome(Response(ServerError, ErrorText(SomethingWentWrong)), []);
    }
    var items := input.items;
    var k, trace, data, fails := ReadUntilInvalid(items, outcomes);
    if k < |items| {
      if items[k].NullItem? {
        return Outcome(Response(ServerError, ErrorText(SomethingWentWrong)), trace);
      }
      return Outcome(Response(BadRequest, ErrorText(MissingField)), trace);
    }
    assert items[..k] == items;
    assert outcomes[..k] == outcomes;
    return Outcome(Response(OK, Batch(data, fails)), trace);
  }

  /** Every processed item lands in exactly one of `data` and `fails`. */
  lemma {:induction false} Partition(items: seq<Item>, outcomes: seq<Result<Value, Value>>)
    requires |outcomes| == |items|
    requires AllValid(items)
    ensures |Successes(items, outcomes)| + |Failures(items, outcomes)| == |items|
    decreases |items|
  {
    if |items| > 0 {
      var n := |items| - 1;
      Partition(items[..n], outcomes[..n]);
    }
  }

  /** An entry is in `data` exactly when some item was read with that value, and in
      `fails` exactly when some item's read threw that error. */
  lemma {:induction false} Membership(items: seq<Item>, outcomes: seq<Result<Value, Value>>, name: Value, segId: Value, v: Value)
    requires |outcomes| == |items|
    requires AllValid(items)
    ensures VarRead(name, segId, v) in Successes(items, outcomes) <==>
              exists j :: 0 <= j < |items| && items[j] == Pair(name, segId) && outcomes[j] == Ok(v)
    ensures VarFail(name, segId, v) in Failures(items, outcomes) <==>
              exists j :: 0 <= j < |items| && items[j] == Pair(name, segId) && outcomes[j] == Err(v)
    decreases |items|
  {
    if |items| > 0 {
      var n := |items| - 1;
      Membership(items[..n], outcomes[..n], name, segId, v);
      assert forall j :: 0 <= j < n ==> items[..n][j] == items[j] && outcomes[..n][j] == outcomes[j];
      assert items[n] == Pair(items[n].name, items[n].segId);
    }
  }

  /** Two items, the second of whose reads fails: both are read, the first lands in
      `data`, the second in `fails`. A segment id of `0` is falsy and stops the batch. */
  lemma BatchExample(v: Value, e: Value)
    ensures var items := [Pair(Str("a"), Num(1.0)), Pair(Str("b"), Num(2.0))];
      && FirstInvalid(items) == 2
      && Reads(items) == [ReadVariable(Str("a"), Num(1.0)), ReadVariable(Str("b"), Num(2.0))]
      && Successes(items, [Ok(v), Err(e)]) == [VarRead(Str("a"), Num(1.0), v)]
      && Failures(items, [Ok(v), Err(e)]) == [VarFail(Str("b"), Num(2.0), e)]
    ensures FirstInvalid([Pair(Str("a"), Num(1.0)), Pair(Str("b"), Num(0.0)), Pair(Str("c"), Num(3.0))]) == 1
  {
    var items := [Pair(Str("a"), Num(1.0)), Pair(Str("b"), Num(2.0))];
    assert items[..1] == [items[0]];
    assert [Ok(v), Err(e)][..1] == [Ok(v)];
    assert items[..1][..0] == [];
    var bad := [Pair(Str("a"), Num(1.0)), Pair(Str("b"), Num(0.0)), Pair(Str("c"), Num(3.0))];
    assert bad[1..][0] == bad[1];
  }
}

=== FILE: wrappers.dfy ===
/** Failure-carrying values used for the device module's answers. */
module Wrappers {

  /** A value that may be absent. */
  datatype Option<+T> = None | Some(value: T)

  /** The outcome of an awaited device call: its resolved value, or the value it threw. */
  datatype Result<+T, +E> = Ok(value: T) | Err(error: E)
}
